=== FILE: README.md ===
# Tool-call message sanitiser, modelled in Dafny

This project models the message sanitiser of a proxy that sits between an OpenAI-style chat client and a
Llama backend. The backend accepts at most one tool call per assistant turn.
`MessageSanitizer.sanitizeMessages` rewrites a conversation history in four stages:

1. **Clean.** Drop messages with an unknown role or with neither content nor tool calls. Drop tool calls
   without an id or function name. Replace unparseable arguments with `"{}"`.
2. **Deduplicate.** Drop a message whose fingerprint (role, content, tool calls, tool_call_id) matches one
   of the last *w* kept messages.
3. **Find completed calls.** Collect the answered ids. Set aside "orphaned" responses, which answer no
   issued call.
4. **Transform.**
   - An assistant turn whose calls are all answered becomes a text summary with at most one line per
     call: a failed call with a successful, similar retry in the same turn gets no line.
   - A turn with unanswered calls keeps only its last unanswered call.
   - Tool responses are dropped unless orphaned.

If a stage throws, the sanitiser falls back to cleaning the input a second time. The first pass has
already altered the input in place, so this second pass can drop messages the first one kept.

The project also models two pure pieces of the Llama handler:
- the guard that rejects any list in which an assistant message carries more than one tool call;
- the line decoding of a streamed response chunk: `data: ` lines, the `[DONE]` marker, unparseable payloads
  skipped.

Modules, one per file, in dependency order:

| file | module | what it holds |
|---|---|---|
| `wrappers.dfy` | `Wrappers` | `Option`, and `Result` for the code paths that throw |
| `text.dfy` | `Text` | the JavaScript string operations used (`trim`, `\s` stripping, `includes`, `split`, `join`, ASCII `toLowerCase`, number rendering) |
| `json.dfy` | `Json` | parsed JSON values, property reads (with the `TypeError` on `null`), `String(v)` and truthiness |
| `messages.dfy` | `Messages` | roles, tool calls, messages, the fingerprint, the single-call constraint |
| `cleaner.dfy` | `Cleaner` | stage 1 |
| `dedup.dfy` | `Dedup` | stage 2 |
| `completion.dfy` | `Completion` | stage 3 and the response map |
| `summary.dfy` | `Summary` | summary lines, retry detection, argument similarity |
| `transform.dfy` | `Transform` | stage 4 |
| `pipeline.dfy` | `Sanitizer` | `sanitizeMessages` and its fallback |
| `handler.dfy` | `LlamaHandler` | the single-call guard and the stream-chunk decoder |

JSON parsing and serialisation are parameters, as a `Codec` holding a partial `parse` and an opaque
`stringify`. The deduplication window is a parameter too; the default configuration sets it to 3
(`src/config/sanitizer.ts:16`).

## Where the code and the intended behaviour differ

The model follows the code. Where the code departs from the intended or described behaviour, the following
lemmas make the difference concrete:

- **Retry suppression is per message.** A failed call is superseded only by a successful, similar call in
  the same assistant message. If the retry comes in a later message, the failure line stays
  (`Summary.LoneFailureReported`). This is the situation of the fixture `src/example.ts:5-65`.
- **Similarity compares key counts, not key sets.** Only the first argument object's keys are looked up,
  and a missing key reads as `"undefined"`. The relation is reflexive but not symmetric
  (`Summary.SimilarityNotSymmetric`).
- **Window values.** A window of 0 means 3, because of `|| 3` (`Dedup.ZeroWindowStillDeduplicates`). A
  negative window `-k` compares against all kept messages except the first `k`, so it is not "off" either
  (`Dedup.NegativeWindowKeepsRepeats`).
- **Empty arguments are never checked.** An empty `arguments` string passes cleaning untouched, so output
  arguments are not always parseable (`Cleaner.EmptyArgumentsNotRepaired`).
- **The sanitiser is not idempotent.** An assistant message whose only call is malformed comes out with
  empty content and an empty call list. A second run drops it (`Sanitizer.NotIdempotent`).
- **The fallback can break the single-call constraint.** Take two answered `web_search` calls whose
  arguments are JSON `null`. Reading `args.query` throws, the fallback returns the cleaned list with both
  calls, and the handler's guard rejects it (`Sanitizer.FallbackKeepsSeveralCalls`,
  `LlamaHandler.FallbackRejected`).
- **The fallback cleans twice.** Cleaning repairs the input's messages in place, so the fallback's second
  cleaning sees repaired messages. It returns the cleaned list minus the messages that cleaning left with
  neither content nor tool calls (`Cleaner.RecleanDropsEmptied`).
- **"Initiated" is unreachable in a completed batch.** A batch is summarised only when every call is
  answered, so no summary line reports an initiated call (`Transform.CompletedBatchBecomesSummary`).

## Model

| member | source | states |
|---|---|---|
| Json.Property | src/utils/messageSanitizer.ts:409-420 | reading a property throws exactly when the value is `null`; otherwise it yields the object's field, or `undefined` when there is none, the same as a plain lookup |
| Cleaner.RepairArguments | src/utils/messageSanitizer.ts:80-91 | a call keeps its id and name; its arguments become `"{}"` exactly when they are non-empty and do not parse, and are otherwise untouched |
| Cleaner.CleanCalls | src/utils/messageSanitizer.ts:74-94 | every kept call has an id and a function name, and its arguments are empty, parseable or `"{}"` |
| Cleaner.CleanCallsMembers | src/utils/messageSanitizer.ts:74-94 | the kept calls are exactly the repaired calls that have an id and a function name; no call is lost when all are well formed |
| Cleaner.CleanCallsAppend | src/utils/messageSanitizer.ts:75-94 | call filtering distributes over concatenation, so kept calls stay in input order |
| Cleaner.CleanMessage | src/utils/messageSanitizer.ts:73-95 | only the tool-call list of a kept message changes, and an absent list stays absent |
| Cleaner.Clean | src/utils/messageSanitizer.ts:61-99 | the result is no longer than the input; every kept message has a recognised role, and every kept call is well formed with clean arguments |
| Cleaner.CleanMembers | src/utils/messageSanitizer.ts:61-99 | the result holds exactly the repaired messages that have a recognised role and either content or a non-empty original call list |
| Cleaner.CleanAppend | src/utils/messageSanitizer.ts:62-99 | cleaning distributes over concatenation, so kept messages stay in input order |
| Cleaner.EmptyCallListSurvives | src/utils/messageSanitizer.ts:62-66 | the emptiness test looks at the original calls: a message whose calls are all malformed is kept with an empty list |
| Cleaner.EmptyArgumentsNotRepaired | src/utils/messageSanitizer.ts:80-84 | empty arguments are kept even when the parser rejects them |
| Cleaner.CleanMessageIdempotent | src/utils/messageSanitizer.ts:74-94 | repairing a repaired message changes nothing |
| Cleaner.RecleanDropsEmptied | src/utils/messageSanitizer.ts:51-55 | the fallback's second cleaning keeps exactly the once-cleaned messages that still have content or a tool call |
| Cleaner.RecleanFixpoint | src/utils/messageSanitizer.ts:61-99 | from the second cleaning on, cleaning changes nothing |
| Dedup.WindowOrDefault | src/utils/messageSanitizer.ts:112-116 | the effective window is never 0; any non-zero configured value is used as given |
| Dedup.Recent | src/utils/messageSanitizer.ts:134 | `slice(-w)` yields a suffix of the kept list: the last `w` for positive `w`, all but the first `-w` for negative `w` |
| Dedup.ShouldInclude | src/utils/messageSanitizer.ts:129-144 | a candidate is kept exactly when no message in the window has its fingerprint; what this means for the whole loop is stated by `Dedup.DedupStep`, `Dedup.DedupWindowDistinct` and `Dedup.DedupCoversFingerprints` |
| Dedup.DedupLoop | src/utils/messageSanitizer.ts:110-121 | the loop's output is never longer than its input; which messages it keeps is stated by `Dedup.DedupStep` and `Dedup.DedupPrefix`, and its order, window-distinctness and fingerprint coverage by `Dedup.DedupSubsequence`, `Dedup.DedupWindowDistinct` and `Dedup.DedupCoversFingerprints` |
| Dedup.DedupPrefix | src/utils/messageSanitizer.ts:110-121 | the loop never revises what it kept: the output for a prefix of the input is a prefix of the output |
| Dedup.DedupStep | src/utils/messageSanitizer.ts:117-120 | a message passing the window test against the messages kept before it is kept right after them and stays in the output; a message failing it adds nothing |
| Dedup.FirstOccurrenceKept | src/utils/messageSanitizer.ts:117-120 | the first message with a given fingerprint is kept, in place after the messages kept before it |
| Dedup.DedupSubsequence | src/utils/messageSanitizer.ts:104-124 | the kept messages form an order-preserving subsequence of the input |
| Dedup.DedupWindowDistinct | src/utils/messageSanitizer.ts:129-144 | no kept message repeats a fingerprint from the window kept before it |
| Dedup.DedupCoversFingerprints | src/utils/messageSanitizer.ts:129-144 | every input fingerprint is still represented in the output |
| Dedup.Deduplicate | src/utils/messageSanitizer.ts:104-124 | its own contract only bounds the length: never more messages than given; which messages it keeps is stated by `Dedup.DeduplicateGuarantees`, `Dedup.DeduplicateDecides`, `Dedup.DeduplicateKeepsFirst` and `Dedup.ShortcutAgreesWithLoop` |
| Dedup.DeduplicateGuarantees | src/utils/messageSanitizer.ts:104-144 | the deduplicated list is an order-preserving subsequence of input messages, window-distinct, and loses no fingerprint |
| Dedup.DeduplicateDecides | src/utils/messageSanitizer.ts:104-144 | every message passing the window test against the messages kept before it is kept in place; a message failing it adds nothing |
| Dedup.DeduplicateKeepsFirst | src/utils/messageSanitizer.ts:104-144 | the first message with a given fingerprint is always in the output, whatever the window |
| Dedup.ShortcutAgreesWithLoop | src/utils/messageSanitizer.ts:105 | the early return for lists of at most one message agrees with the loop |
| Dedup.NoRepeatWithinWindow | src/utils/messageSanitizer.ts:129-144 | with a positive window, kept messages at most `w` apart never share a fingerprint |
| Dedup.DistinctUnchanged | src/utils/messageSanitizer.ts:110-121 | a window-distinct list passes the loop unchanged |
| Dedup.DeduplicateIdempotent | src/utils/messageSanitizer.ts:104-124 | deduplicating twice gives the same list as deduplicating once |
| Dedup.DistinctFingerprintsUnchanged | src/utils/messageSanitizer.ts:104-144 | a list with no repeated fingerprint passes unchanged, whatever the window |
| Dedup.RunCollapses | src/utils/messageSanitizer.ts:110-121 | with a positive window, a run of identical messages collapses to what its first message leaves |
| Dedup.DuplicateFlood | src/complex-example.ts:109-112 | a run of four identical messages under the default window leaves one |
| Dedup.ZeroWindowStillDeduplicates | src/utils/messageSanitizer.ts:115 | a configured window of 0 still drops an immediate repeat |
| Dedup.NegativeWindowKeepsRepeats | src/utils/messageSanitizer.ts:134 | a window of -1 lets identical neighbours through |
| Messages.FingerprintOf | src/utils/messageSanitizer.ts:149-158 | the fingerprint reads an absent call list as empty; when two fingerprints agree is stated by `Messages.SameFingerprint` |
| Messages.SameFingerprint | src/utils/messageSanitizer.ts:149-158 | two messages share a fingerprint exactly when role, content and `tool_call_id` agree and their call lists agree, an absent list counting as empty |
| Completion.ResponseIds | src/utils/messageSanitizer.ts:164-174 | an id is answered exactly when some tool message carries it as a non-empty `tool_call_id` |
| Completion.IssuedIds | src/utils/messageSanitizer.ts:249-254 | an id is issued exactly when some assistant message has a call with that id |
| Completion.Orphans | src/utils/messageSanitizer.ts:242-266 | an id is orphaned exactly when it is answered and issued by no assistant message |
| Completion.Completed | src/utils/messageSanitizer.ts:186-192 | removing the orphans leaves the answered ids that were also issued |
| Completion.CompletedIffAnswered | src/utils/messageSanitizer.ts:186-202 | an issued call counts as completed exactly when some tool message answers it |
| Completion.Succeeded | src/utils/messageSanitizer.ts:278 | a response is a success exactly when its lower-cased content has no `"error"`; `Completion.ErrorInAnyCaseFails` and `Completion.NoLetterESucceeds` state both sides |
| Completion.ErrorInAnyCaseFails | src/utils/messageSanitizer.ts:278 | content holding `error` in any letter case is a failure |
| Completion.NoLetterESucceeds | src/utils/messageSanitizer.ts:278 | content without the letter `e` in either case is a success |
| Completion.ResponseMap | src/utils/messageSanitizer.ts:271-288 | the map is built exactly when no answering tool message lacks content (otherwise `toLowerCase` throws), and its keys are the answered ids |
| Completion.ResponseMapKeepsLast | src/utils/messageSanitizer.ts:276-285 | each entry is the response of the last tool message answering that id, with success meaning no `"error"` in the lower-cased content |
| Completion.LaterResponseWins | src/utils/messageSanitizer.ts:276-285 | a later answer to the same id replaces the earlier one |
| Summary.ParsedArguments | src/utils/messageSanitizer.ts:301-307 | the summary reads the parsed arguments, or, when parsing fails, an object whose only key is `raw`, holding the text |
| Summary.ArgumentsSimilar | src/utils/messageSanitizer.ts:371-396 | the similarity test; its properties are stated by `Summary.SimilarityReflexive`, `Summary.NumberSimilarToDigits` and `Summary.SimilarityNotSymmetric`; a top-level array argument counts as keyless (see "Left out") |
| Summary.SimilarityReflexive | src/utils/messageSanitizer.ts:371-396 | every argument text is similar to itself |
| Summary.NumberSimilarToDigits | src/utils/messageSanitizer.ts:382-388 | a number and the string of its digits count as the same argument, in both directions |
| Summary.SimilarityNotSymmetric | src/utils/messageSanitizer.ts:377-391 | with equal key counts, a key of the first that is missing from the second can still match, so similarity is not symmetric |
| Summary.HasSuccessfulRetry | src/utils/messageSanitizer.ts:340-366 | a failed call has a successful retry when another call of the batch has its name, a successful response and similar arguments; the loop is `Summary.FindSuccessfulRetry`, and `Summary.LoneCallHasNoRetry` shows the call itself never counts |
| Summary.FindSuccessfulRetry | src/utils/messageSanitizer.ts:340-366 | the search loop answers true exactly when the batch holds another call with the same name, a successful response and similar arguments |
| Summary.LoneCallHasNoRetry | src/utils/messageSanitizer.ts:349-350 | a call alone in its batch has no retry, since the call itself is skipped |
| Summary.ResultCount | src/utils/messageSanitizer.ts:409-410 | counting search results throws exactly on a `null` search result; otherwise the count is the length of a string or array `results` field, and 0 when the field is absent or has no length |
| Summary.SuccessLine | src/utils/messageSanitizer.ts:401-427 | the success line throws exactly for a templated function with `null` arguments. `web_search` reads `Performed web search for: ` and the query; `get_page_content` reads `Retrieved content from page: ` and the url, or the page id when the url is falsy; `execute_cql_search` reports the quoted query with the result count when the response parses to a non-null value, and the plain `Successfully executed Confluence search for` line otherwise; other functions get the generic line |
| Summary.CqlLine | src/utils/messageSanitizer.ts:407-414 | the search line quotes the query and gives the result count when the response parses, and falls back otherwise; it throws exactly on `null` arguments |
| Summary.PageLine | src/utils/messageSanitizer.ts:416-417 | the page line gives the url, or the page id when the url is falsy; it throws exactly on `null` arguments |
| Summary.SearchLine | src/utils/messageSanitizer.ts:419-420 | the web search line gives the query; it throws exactly on `null` arguments |
| Summary.UnparsedSearchLine | src/utils/messageSanitizer.ts:301-307 | a `web_search` call whose arguments do not parse is reported as `Performed web search for: undefined` |
| Summary.CqlCountSample | src/utils/messageSanitizer.ts:407-411 | a search for `x` whose response lists two results reads `Searched Confluence for "x" and found 2 result(s)` |
| Summary.PageIdSample | src/utils/messageSanitizer.ts:416-417 | a page whose url is empty is reported by its page id |
| Summary.CallLine | src/utils/messageSanitizer.ts:298-330 | a call's line throws exactly when its successful response meets `null` templated arguments. It is suppressed exactly when it failed and the batch holds a successful retry; an unsuppressed failure reads `Failed to execute …`. A line says `Initiated` exactly when the call is unanswered, and then reads `Initiated <name> with <arguments>`; an answered successful call's line is its success line |
| Summary.Lines | src/utils/messageSanitizer.ts:297-332 | the line list is built exactly when every call's line is; it is never longer than the batch and each line starts visibly |
| Summary.LinesSingle | src/utils/messageSanitizer.ts:297-332 | a single call gives its own line, or nothing when that line is suppressed, and throws exactly when its line does |
| Summary.LinesAppend | src/utils/messageSanitizer.ts:297-332 | the lines of consecutive calls are the first calls' lines followed by the rest's, so lines come in call order, and the list is built exactly when both parts are |
| Summary.LinesNonEmpty | src/utils/messageSanitizer.ts:332 | a call whose line is kept leaves the line list non-empty |
| Summary.Summarize | src/utils/messageSanitizer.ts:293-335 | the summary is built exactly when every call's line is |
| Summary.LoneFailureReported | src/example.ts:22-51 | a failed call alone in its message is reported as failed, whatever later messages retry it |
| Summary.SummaryNeverBlank | src/utils/messageSanitizer.ts:204-216 | when every call of a batch is answered, the summary is not blank, so the summary message is never dropped |
| Summary.NoInitiatedLine | src/utils/messageSanitizer.ts:309-311 | when every call is answered, no line reports an initiated call |
| Transform.Pending | src/utils/messageSanitizer.ts:200-202 | there are no pending calls exactly when every call of the batch is completed |
| Transform.PendingMembers | src/utils/messageSanitizer.ts:200-202 | the pending calls are exactly the calls of the batch whose ids are not completed |
| Transform.PendingEndsWithLastPending | src/utils/messageSanitizer.ts:217-223 | the last pending call is the last call of the batch whose id is not completed |
| Transform.SummaryMessage | src/utils/messageSanitizer.ts:211-215 | the replacement message; `Transform.TransformOne` and `Transform.CompletedBatchBecomesSummary` state that it is an assistant message holding the non-blank summary |
| Transform.TransformOne | src/utils/messageSanitizer.ts:194-233 | at most one output message with at most one call per assistant. Ordinary messages are copied. A tool message is copied exactly when orphaned. A batch with pending calls keeps only its last pending call. A completed batch becomes non-blank summary messages, and fails exactly when the summary throws |
| Transform.TransformAll | src/utils/messageSanitizer.ts:194-236 | the list is transformed exactly when every message is; the result is no longer than the input and meets the single-call constraint |
| Transform.TransformAllSingle | src/utils/messageSanitizer.ts:194-233 | a one-message list is transformed as its message is |
| Transform.TransformAllAppend | src/utils/messageSanitizer.ts:194-236 | transforming consecutive lists gives the first list's output followed by the second's, so output follows input order, and a throwing message anywhere aborts the whole |
| Transform.TransformAllOrigin | src/utils/messageSanitizer.ts:194-233 | every output message is the output of one input message |
| Transform.TransformMessages | src/utils/messageSanitizer.ts:180-237 | a throwing response map aborts; otherwise the orphan-free completed set drives the per-message rule; the result satisfies the single-call constraint |
| Transform.TransformedCallsAreUnanswered | src/utils/messageSanitizer.ts:194-233 | every call left in an output assistant message was issued in the input and has no response there; every tool message left is an orphan |
| Transform.OutputCallOrigin | src/utils/messageSanitizer.ts:217-223 | a call in an output assistant message is a pending call of the assistant message it came from |
| Transform.CompletedBatchBecomesSummary | src/utils/messageSanitizer.ts:204-216 | a fully answered batch becomes exactly one assistant message holding the newline-joined lines, none of which reports an initiated call |
| Transform.PendingCallKept | src/utils/messageSanitizer.ts:217-229 | of two calls with only the second answered, only the first is kept and the answer is dropped |
| Sanitizer.Stages | src/utils/messageSanitizer.ts:33-50 | when the four stages succeed, the result is no longer than the input and has at most one call per assistant message |
| Sanitizer.Sanitize | src/utils/messageSanitizer.ts:32-56 | the output is no longer than the input; on the success path it meets the single-call constraint; on the fallback path it is the input cleaned twice |
| Sanitizer.NotIdempotent | src/utils/messageSanitizer.ts:62-94 | a second run of the sanitiser can drop a message the first run kept |
| Sanitizer.FallbackKeepsSeveralCalls | src/utils/messageSanitizer.ts:51-55 | `null` arguments for answered `web_search` calls force the fallback, whose output breaks the single-call constraint |
| Sanitizer.OrphanPassesThrough | src/utils/messageSanitizer.ts:224-229 | a tool response to an id no assistant issued passes through unchanged |
| LlamaHandler.ValidateToolCallConstraints | src/interceptor/llamaHandler.ts:76-86 | the guard accepts exactly the lists with at most one call per assistant message, and otherwise reports the count of the first offender |
| LlamaHandler.NonAssistantNeverRejected | src/interceptor/llamaHandler.ts:78 | a message of another role never changes the verdict, whatever calls it carries |
| LlamaHandler.SanitizeAndValidate | src/interceptor/llamaHandler.ts:53-56 | the guarded list is the sanitised one and meets the constraint; a rejection means the sanitised list broke it |
| LlamaHandler.SanitizedOutputAccepted | src/interceptor/llamaHandler.ts:112-113 | when the sanitiser's stages succeed, the guard always lets the list through |
| LlamaHandler.FallbackRejected | src/interceptor/llamaHandler.ts:76-86 | the guard rejects the fallback output of the `null`-argument sample, reporting two calls |
| LlamaHandler.DataPayload | src/interceptor/llamaHandler.ts:150-151 | a line has a payload exactly when it starts with `data: `, and the payload is the rest of the line |
| LlamaHandler.NonBlankMembers | src/interceptor/llamaHandler.ts:147 | the visited lines are exactly the non-blank ones |
| LlamaHandler.DecodeLines | src/interceptor/llamaHandler.ts:149-162 | the line loop yields no more payloads than lines; what it yields is stated by `LlamaHandler.DecodeMatchesReference` |
| LlamaHandler.DecodeChunk | src/interceptor/llamaHandler.ts:146-162 | one chunk's text is split into lines and the non-blank ones decoded; `LlamaHandler.BlankLinesIgnored` and `LlamaHandler.DoneEndsChunkText` state what it yields |
| LlamaHandler.DecodeStream | src/interceptor/llamaHandler.ts:142-163 | a chunk that ends the stream is the whole result; `LlamaHandler.StreamIsOneLineList` and `LlamaHandler.DoneEndsStream` state the rest |
| LlamaHandler.DecodeMatchesReference | src/interceptor/llamaHandler.ts:147-162 | decoding equals three steps: take the `data: ` payloads, cut at the first `[DONE]`, keep the ones that parse. The chunk ends the stream exactly when a payload is `[DONE]` |
| LlamaHandler.BlankLinesIgnored | src/interceptor/llamaHandler.ts:147 | dropping blank lines first changes nothing |
| LlamaHandler.DecodeLinesAppend | src/interceptor/llamaHandler.ts:149-162 | after `[DONE]` nothing more is decoded; otherwise the results of consecutive lines concatenate |
| LlamaHandler.DoneEndsChunk | src/interceptor/llamaHandler.ts:152-154 | no line after a `[DONE]` line is decoded, and the chunk ends the stream |
| LlamaHandler.DoneEndsChunkText | src/interceptor/llamaHandler.ts:147-154 | in a chunk's text, nothing after a `data: [DONE]` line is decoded |
| LlamaHandler.DoneEndsStream | src/interceptor/llamaHandler.ts:142-154 | once the stream is done, later chunks contribute nothing |
| LlamaHandler.StreamIsOneLineList | src/interceptor/llamaHandler.ts:142-163 | chunk boundaries act only as line boundaries |
| Text.Split | src/interceptor/llamaHandler.ts:147 | a split has at least one piece; `Text.SplitPieces`, `Text.SplitJoin` and `Text.SplitAppend` characterise the pieces |
| Text.Join | src/utils/messageSanitizer.ts:334 | a non-empty join starts with its first part and an empty one is empty; `Text.JoinSplit` shows nothing is lost |
| Text.SplitPieces | src/interceptor/llamaHandler.ts:147 | no piece of a split holds the separator; a text without the separator is its own only piece |
| Text.SplitJoin | src/interceptor/llamaHandler.ts:147 | splitting on a separator and joining with it gives the text back |
| Text.JoinSplit | src/utils/messageSanitizer.ts:334 | joining separator-free lines and splitting again gives the lines back |
| Text.SplitAppend | src/interceptor/llamaHandler.ts:147 | a separator splits a text into the pieces before it followed by the pieces after it |
| Text.StripWhitespace | src/utils/messageSanitizer.ts:394 | stripping never lengthens a text and keeps no white space |
| Text.StripWhitespaceKeeps | src/utils/messageSanitizer.ts:394 | every character that is not white space is kept |
| Text.StripWhitespaceAppend | src/utils/messageSanitizer.ts:394 | stripping works character by character, so kept characters stay in order and a single character is kept exactly when it is not white space |

## Left out

- Network I/O: `callLlamaApi`, `fetch`, the body reader and `TextDecoder`, `releaseLock`, and the async
  generator mechanics. The decoder is modelled per chunk. A stream is a sequence of chunk texts, and lines
  split across chunks are not reassembled, as in the code.
- `JSON.parse` and `JSON.stringify`: a parameter `Codec`. A parsed value is a flat object of scalars, or a
  single scalar. Nested values are opaque and carry only their `.length` and `String(v)`.
- MD5 hashing of the fingerprint: replaced by structural equality of the fingerprint. Hash collisions and
  key-order effects of `JSON.stringify` are ignored. A `null` content is not told apart from an absent one.
- `Object.keys` on non-null primitives: treated as keyless. JavaScript lists a string's character indices.
- Summary.ArgumentsSimilar: a top-level JSON array is opaque, so it counts as keyless. In the code its keys
  are the indices, so arrays of different lengths, or with different elements, are not similar. The model
  calls any two such arrays similar, and so may suppress a failed call that was retried with different
  array arguments.
- `String(object)` for nested values: the text carried by `Nested` is used.
- Unicode `toLowerCase`: only ASCII letters are lower-cased.
- `String.length` counts characters rather than UTF-16 code units.
- Console logging and the `console.warn` diagnostics.
- In-place mutation of the input: cleaning is a pure function. The only observable effect of the mutation,
  on the fallback, is modelled by cleaning twice.
- The configuration manager: only `deduplicationWindow` is read, and it is a parameter.
  `summaryTemplates`, `preserveFailedCalls`, `deduplicationEnabled` and `strictValidation` are never
  consulted by the code.
- The `type: "function"` field of tool calls: a constant, left implicit.
- Dedup.Deduplicate: its own contract only bounds the length; its guarantees are in
  `Dedup.DeduplicateGuarantees`.
- Summary.Summarize: its own contract only characterises when it throws. Its text is the newline join of
  `Summary.Lines`, whose content and order `Summary.LinesSingle` and `Summary.LinesAppend` state;
  `Summary.SummaryNeverBlank` and `Summary.NoInitiatedLine` add what a fully answered batch guarantees.
- A tool call without an `arguments` field: the message type requires the field, so it is not modelled.
  The code would throw on it when comparing arguments for a retry, where the model compares strings.
- The text of the guard's error: the model reports the offending count, not the sentence built from it.

=== FILE: cleaner.dfy ===
/** Validation and cleaning: the first stage of the sanitiser (`validateAndCleanMessages`). */
module Cleaner {
  import opened Wrappers
  import opened Json
  import opened Messages

  predicate RecognisedRole(r: Role) {
    r == User || r == Assistant || r == Tool
  }

  /**
    A message survives cleaning when its role is one of the three protocol roles and it has content or a
    non-empty tool-call list. The test looks at the tool calls as they were before any are removed.
  */
  predicate Survives(m: Message) {
    (HasContent(m) || |Calls(m)| > 0) && RecognisedRole(m.role)
  }

  /** A tool call survives when it has an id and a function name. */
  predicate WellFormedCall(c: ToolCall) {
    c.id != "" && c.name != ""
  }

  /** Non-empty arguments that do not parse are replaced by `"{}"`; empty arguments are never checked. */
  function RepairArguments(c: ToolCall, parse: string -> Option<Json>): (r: ToolCall)
    ensures r.id == c.id && r.name == c.name
    ensures c.arguments == "" || parse(c.arguments).Some? ==> r == c
    ensures c.arguments != "" && parse(c.arguments).None? ==> r.arguments == "{}"
  {
    if c.arguments != "" && parse(c.arguments).None? then c.(arguments := "{}") else c
  }

  /** Arguments as cleaning leaves them: empty, parseable, or the literal `"{}"`. */
  predicate CleanArguments(a: string, parse: string -> Option<Json>) {
    a == "" || parse(a).Some? || a == "{}"
  }

  /** The call filter: the well-formed calls, repaired, in order. */
  function CleanCalls(cs: seq<ToolCall>, parse: string -> Option<Json>): (r: seq<ToolCall>)
    ensures |r| <= |cs|
    ensures forall i | 0 <= i < |r| :: WellFormedCall(r[i]) && CleanArguments(r[i].arguments, parse)
  {
    if |cs| == 0 then []
    else
      var head := if WellFormedCall(cs[0]) then [RepairArguments(cs[0], parse)] else [];
      head + CleanCalls(cs[1..], parse)
  }

  /**
    The kept calls are exactly the repaired well-formed calls, and when every call is well formed none is
    lost.
  */
  lemma {:induction false} CleanCallsMembers(cs: seq<ToolCall>, parse: string -> Option<Json>)
    ensures forall c | c in cs && WellFormedCall(c) :: RepairArguments(c, parse) in CleanCalls(cs, parse)
    ensures forall x | x in CleanCalls(cs, parse) ::
      exists c | c in cs :: WellFormedCall(c) && x == RepairArguments(c, parse)
    ensures (forall c | c in cs :: WellFormedCall(c)) ==> |CleanCalls(cs, parse)| == |cs|
  {
    if |cs| > 0 {
      CleanCallsMembers(cs[1..], parse);
      assert forall c | c in cs :: c == cs[0] || c in cs[1..];
      assert forall c | c in cs[1..] :: c in cs;
    }
  }

  /** Call filtering works call by call: it distributes over concatenation, so the survivors keep their order. */
  lemma {:induction false} CleanCallsAppend(a: seq<ToolCall>, b: seq<ToolCall>, parse: string -> Option<Json>)
    ensures CleanCalls(a + b, parse) == CleanCalls(a, parse) + CleanCalls(b, parse)
  {
    if |a| > 0 {
      CleanCallsAppend(a[1..], b, parse);
      CleanCallsFirst(a, parse);
      assert (a + b)[1..] == a[1..] + b;
      CleanCallsFirst(a + b, parse);
      var head := CleanCalls([a[0]], parse);
      assert head + (CleanCalls(a[1..], parse) + CleanCalls(b, parse))
          == (head + CleanCalls(a[1..], parse)) + CleanCalls(b, parse);
    } else {
      assert a + b == b;
    }
  }

  lemma CleanCallsFirst(cs: seq<ToolCall>, parse: string -> Option<Json>)
    requires |cs| > 0
    ensures CleanCalls(cs, parse) == CleanCalls([cs[0]], parse) + CleanCalls(cs[1..], parse)
  {
    assert [cs[0]][1..] == [];
  }

  /** The repair applied to a surviving message: only its tool-call list changes. */
  function CleanMessage(m: Message, parse: string -> Option<Json>): (r: Message)
    ensures r.role == m.role && r.content == m.content && r.name == m.name && r.toolCallId == m.toolCallId
    ensures m.toolCalls.None? <==> r.toolCalls.None?
    ensures m.toolCalls.Some? ==> r.toolCalls == Some(CleanCalls(m.toolCalls.value, parse))
  {
    match m.toolCalls
    case None => m
    case Some(cs) => m.(toolCalls := Some(CleanCalls(cs, parse)))
  }

  /** The cleaned list: the surviving messages, repaired, in input order. */
  function Clean(ms: seq<Message>, parse: string -> Option<Json>): (r: seq<Message>)
    ensures |r| <= |ms|
    ensures forall i | 0 <= i < |r| :: RecognisedRole(r[i].role)
    ensures forall i, j | 0 <= i < |r| && 0 <= j < |Calls(r[i])| ::
      WellFormedCall(Calls(r[i])[j]) && CleanArguments(Calls(r[i])[j].arguments, parse)
  {
    if |ms| == 0 then []
    else
      var head := if Survives(ms[0]) then [CleanMessage(ms[0], parse)] else [];
      head + Clean(ms[1..], parse)
  }

  /** The cleaned list holds exactly the surviving messages, repaired. */
  lemma {:induction false} CleanMembers(ms: seq<Message>, parse: string -> Option<Json>)
    ensures forall m | m in ms && Survives(m) :: CleanMessage(m, parse) in Clean(ms, parse)
    ensures forall x | x in Clean(ms, parse) :: exists m | m in ms :: Survives(m) && x == CleanMessage(m, parse)
  {
    if |ms| > 0 {
      CleanMembers(ms[1..], parse);
      assert forall m | m in ms :: m == ms[0] || m in ms[1..];
      assert forall m | m in ms[1..] :: m in ms;
    }
  }

  /** Cleaning works message by message: it distributes over concatenation, so input order is kept. */
  lemma {:induction false} CleanAppend(a: seq<Message>, b: seq<Message>, parse: string -> Option<Json>)
    ensures Clean(a + b, parse) == Clean(a, parse) + Clean(b, parse)
  {
    if |a| > 0 {
      CleanAppend(a[1..], b, parse);
      assert (a + b)[1..] == a[1..] + b;
      assert (a + b)[0] == a[0];
    } else {
      assert a + b == b;
    }
  }

  /** A surviving message may come out with an empty tool-call list when all its calls were malformed. */
  lemma EmptyCallListSurvives(parse: string -> Option<Json>)
    ensures
      var bad := ToolCall("", "web_search", "{}");
      var m := Message(Assistant, Some(""), None, Some([bad]), None);
      Clean([m], parse) == [m.(toolCalls := Some([]))]
  {
    var bad := ToolCall("", "web_search", "{}");
    var m := Message(Assistant, Some(""), None, Some([bad]), None);
    assert Survives(m);
    assert CleanCalls([bad], parse) == [];
  }

  /** Empty arguments pass cleaning untouched even when they are not valid JSON. */
  lemma EmptyArgumentsNotRepaired(parse: string -> Option<Json>)
    requires parse("").None?
    ensures
      var c := ToolCall("call_1", "web_search", "");
      var m := Message(Assistant, None, None, Some([c]), None);
      var r := Clean([m], parse);
      |r| == 1 && Calls(r[0]) == [c] && parse(Calls(r[0])[0].arguments).None?
  {
    var c := ToolCall("call_1", "web_search", "");
    var m := Message(Assistant, None, None, Some([c]), None);
    assert Survives(m);
    assert CleanCalls([c], parse) == [c];
  }

  /** Cleaning a repaired message again changes nothing. */
  lemma {:induction false} CleanMessageIdempotent(m: Message, parse: string -> Option<Json>)
    ensures CleanMessage(CleanMessage(m, parse), parse) == CleanMessage(m, parse)
  {
    if m.toolCalls.Some? {
      CleanCallsIdempotent(m.toolCalls.value, parse);
    }
  }

  lemma {:induction false} CleanCallsIdempotent(cs: seq<ToolCall>, parse: string -> Option<Json>)
    ensures CleanCalls(CleanCalls(cs, parse), parse) == CleanCalls(cs, parse)
  {
    if |cs| > 0 {
      CleanCallsIdempotent(cs[1..], parse);
      var tail := CleanCalls(cs[1..], parse);
      if WellFormedCall(cs[0]) {
        var h := RepairArguments(cs[0], parse);
        assert CleanCalls(cs, parse) == [h] + tail;
        CleanCallsCons(h, tail, parse);
      } else {
        assert CleanCalls(cs, parse) == tail;
      }
    }
  }

  lemma CleanCallsCons(h: ToolCall, tail: seq<ToolCall>, parse: string -> Option<Json>)
    requires WellFormedCall(h) && RepairArguments(h, parse) == h
    ensures CleanCalls([h] + tail, parse) == [h] + CleanCalls(tail, parse)
  {
    assert ([h] + tail)[1..] == tail;
  }

  /**
    Cleaning an already cleaned list keeps exactly the messages that still have content or a tool call.
    The fallback path relies on this: cleaning repairs its input in place, so the fallback's second
    cleaning sees the already filtered tool-call lists.
  */
  lemma {:induction false} RecleanDropsEmptied(ms: seq<Message>, parse: string -> Option<Json>)
    ensures forall x | x in Clean(Clean(ms, parse), parse) :: x in Clean(ms, parse) && (HasContent(x) || |Calls(x)| > 0)
    ensures forall x | x in Clean(ms, parse) && (HasContent(x) || |Calls(x)| > 0) :: x in Clean(Clean(ms, parse), parse)
  {
    var once := Clean(ms, parse);
    var twice := Clean(once, parse);
    CleanMembers(ms, parse);
    CleanMembers(once, parse);
    forall x | x in twice
      ensures x in once && (HasContent(x) || |Calls(x)| > 0)
    {
      var y :| y in once && Survives(y) && x == CleanMessage(y, parse);
      var m :| m in ms && Survives(m) && y == CleanMessage(m, parse);
      CleanMessageIdempotent(m, parse);
    }
    forall x | x in once && (HasContent(x) || |Calls(x)| > 0)
      ensures x in twice
    {
      var m :| m in ms && Survives(m) && x == CleanMessage(m, parse);
      CleanMessageIdempotent(m, parse);
      assert Survives(x);
    }
  }

  /** From the second cleaning on, cleaning changes nothing: `Clean` reaches a fixed point after two passes. */
  lemma {:induction false} RecleanFixpoint(ms: seq<Message>, parse: string -> Option<Json>)
    ensures Clean(Clean(Clean(ms, parse), parse), parse) == Clean(Clean(ms, parse), parse)
  {
    var once := Clean(ms, parse);
    var twice := Clean(once, parse);
    forall i | 0 <= i < |twice|
      ensures Survives(twice[i]) && CleanMessage(twice[i], parse) == twice[i]
    {
      TwiceCleanedStable(twice[i], ms, parse);
    }
    CleanIdentity(twice, parse);
  }

  lemma TwiceCleanedStable(x: Message, ms: seq<Message>, parse: string -> Option<Json>)
    requires x in Clean(Clean(ms, parse), parse)
    ensures Survives(x) && CleanMessage(x, parse) == x
  {
    var once := Clean(ms, parse);
    CleanMembers(ms, parse);
    CleanMembers(once, parse);
    var y :| y in once && Survives(y) && x == CleanMessage(y, parse);
    var m :| m in ms && Survives(m) && y == CleanMessage(m, parse);
    CleanMessageIdempotent(m, parse);
  }

  lemma {:induction false} CleanIdentity(ms: seq<Message>, parse: string -> Option<Json>)
    requires forall i | 0 <= i < |ms| :: Survives(ms[i]) && CleanMessage(ms[i], parse) == ms[i]
    ensures Clean(ms, parse) == ms
  {
    if |ms| > 0 {
      CleanIdentity(ms[1..], parse);
      assert ms == [ms[0]] + ms[1..];
    }
  }
}

=== FILE: completion.dfy ===
/**
  Completion analysis: which tool calls have been answered (`identifyCompletedToolCalls`), which tool
  responses answer no call (`findOrphanedToolResponses`), and the recorded response per id
  (`buildToolResponseMap`).
*/
module Completion {
  import opened Wrappers
  import opened Text
  import opened Json
  import opened Messages

  /** The ids answered by some tool message (the `completedToolCalls` set before orphans are removed). */
  function ResponseIds(ms: seq<Message>): (ids: set<string>)
    ensures forall id :: id in ids <==> exists i | 0 <= i < |ms| :: Answers(ms[i], id)
  {
    if |ms| == 0 then {}
    else
      var prefix := ms[..|ms| - 1];
      var last := ms[|ms| - 1];
      var earlier := ResponseIds(prefix);
      assert forall i | 0 <= i < |prefix| :: prefix[i] == ms[i];
      if last.role == Tool && last.toolCallId.Some? && last.toolCallId.value != "" then
        earlier + {last.toolCallId.value}
      else
        earlier
  }

  function CallIds(cs: seq<ToolCall>): set<string> {
    set c | c in cs :: c.id
  }

  /** The ids of the tool calls issued by assistant messages. */
  function IssuedIds(ms: seq<Message>): (ids: set<string>)
    ensures forall id :: id in ids <==> exists i | 0 <= i < |ms| :: Issues(ms[i], id)
  {
    if |ms| == 0 then {}
    else
      var prefix := ms[..|ms| - 1];
      var last := ms[|ms| - 1];
      var earlier := IssuedIds(prefix);
      assert forall i | 0 <= i < |prefix| :: prefix[i] == ms[i];
      if last.role == Assistant then earlier + CallIds(Calls(last)) else earlier
  }

  /** Orphaned responses: ids answered by a tool message but issued by no assistant message. */
  function Orphans(ms: seq<Message>): (ids: set<string>)
    ensures forall id :: id in ids <==>
      (exists i | 0 <= i < |ms| :: Answers(ms[i], id)) && !(exists i | 0 <= i < |ms| :: Issues(ms[i], id))
  {
    ResponseIds(ms) - IssuedIds(ms)
  }

  /** The completed set the transformation consults: the answered ids with the orphans removed. */
  function Completed(ms: seq<Message>): (ids: set<string>)
    ensures ids == ResponseIds(ms) * IssuedIds(ms)
  {
    ResponseIds(ms) - Orphans(ms)
  }

  /**
    For a call issued in the list, removing orphans changes nothing: the call counts as completed exactly
    when some tool message answers its id. A pending call is therefore an unanswered one.
  */
  lemma CompletedIffAnswered(ms: seq<Message>, k: int, c: ToolCall)
    requires 0 <= k < |ms| && ms[k].role == Assistant && c in Calls(ms[k])
    ensures c.id in Completed(ms) <==> exists i | 0 <= i < |ms| :: Answers(ms[i], c.id)
  {
    assert Issues(ms[k], c.id);
  }

  /** A recorded tool response (`ToolResponse`). */
  datatype ToolResponse = ToolResponse(toolCallId: string, content: string, success: bool)

  /** The success heuristic: the lower-cased content does not contain `"error"`. */
  predicate Succeeded(content: string) {
    !Contains(AsciiLower(content), "error")
  }

  /** The word is found in any letter case: content holding `"error"`, `"Error"` or `"ERROR"` counts as a failure. */
  lemma ErrorInAnyCaseFails(content: string, i: int)
    requires 0 <= i <= |content| - 5
    requires AsciiLower(content[i..i + 5]) == "error"
    ensures !Succeeded(content)
  {
    var low := AsciiLower(content);
    assert low[i..i + 5] == AsciiLower(content[i..i + 5]);
    assert OccursAt(low, "error", i);
  }

  /** Content without the letter `e` in either case never reads as a failure. */
  lemma NoLetterESucceeds(content: string)
    requires forall k | 0 <= k < |content| :: content[k] != 'e' && content[k] != 'E'
    ensures Succeeded(content)
  {
    var low := AsciiLower(content);
    forall i | 0 <= i <= |low| - 5
      ensures !OccursAt(low, "error", i)
    {
      assert low[i..i + 5][0] == low[i] == LowerChar(content[i]) != 'e';
    }
  }

  /** A tool message the response map reads but whose content is absent, so `toLowerCase` throws. */
  predicate LacksContent(m: Message) {
    m.role == Tool && m.toolCallId.Some? && m.toolCallId.value != "" && m.content.None?
  }

  function ResponseOf(m: Message): ToolResponse
    requires m.toolCallId.Some? && m.content.Some?
  {
    ToolResponse(m.toolCallId.value, m.content.value, Succeeded(m.content.value))
  }

  /** `resp` is the response of the last tool message in `ms` that answers `id`. */
  predicate IsLastAnswer(ms: seq<Message>, id: string, resp: ToolResponse) {
    exists i | 0 <= i < |ms| ::
      && Answers(ms[i], id) && ms[i].content.Some? && resp == ResponseOf(ms[i])
      && forall j | i < j < |ms| :: !Answers(ms[j], id)
  }

  /**
    `buildToolResponseMap`: one entry per answered id, holding the last response for it. It throws when a
    tool message with an id has no content.
  */
  function ResponseMap(ms: seq<Message>): (r: Result<map<string, ToolResponse>, TypeError>)
    ensures r.Success? <==> forall i | 0 <= i < |ms| :: !LacksContent(ms[i])
    ensures r.Success? ==> r.value.Keys == ResponseIds(ms)
  {
    if |ms| == 0 then Success(map[])
    else
      var prefix := ms[..|ms| - 1];
      var last := ms[|ms| - 1];
      var earlier := ResponseMap(prefix);
      assert forall i | 0 <= i < |prefix| :: prefix[i] == ms[i];
      if earlier.Failure? then earlier
      else if last.role == Tool && last.toolCallId.Some? && last.toolCallId.value != "" then
        if last.content.None? then Failure(MethodOfUndefined("toLowerCase"))
        else Success(earlier.value[last.toolCallId.value := ResponseOf(last)])
      else earlier
  }

  /** Each entry of the response map is the response of the last tool message answering that id. */
  lemma {:induction false} ResponseMapKeepsLast(ms: seq<Message>)
    requires ResponseMap(ms).Success?
    ensures forall id | id in ResponseMap(ms).value :: IsLastAnswer(ms, id, ResponseMap(ms).value[id])
  {
    if |ms| > 0 {
      var prefix := ms[..|ms| - 1];
      var last := ms[|ms| - 1];
      assert ms == prefix + [last];
      ResponseMapKeepsLast(prefix);
      var earlier := ResponseMap(prefix).value;
      if last.role == Tool && last.toolCallId.Some? && last.toolCallId.value != "" {
        LastAnswerExtends(prefix, last, earlier, ResponseMap(ms).value);
      } else {
        LastAnswerUnchanged(prefix, last, earlier);
      }
    }
  }

  lemma LastAnswerExtends(prefix: seq<Message>, last: Message, earlier: map<string, ToolResponse>, r: map<string, ToolResponse>)
    requires last.role == Tool && last.toolCallId.Some? && last.toolCallId.value != "" && last.content.Some?
    requires forall id | id in earlier :: IsLastAnswer(prefix, id, earlier[id])
    requires r == earlier[last.toolCallId.value := ResponseOf(last)]
    ensures forall id | id in r :: IsLastAnswer(prefix + [last], id, r[id])
  {
    var ms := prefix + [last];
    forall id | id in r
      ensures IsLastAnswer(ms, id, r[id])
    {
      if id == last.toolCallId.value {
        assert Answers(ms[|prefix|], id);
      } else {
        var i :| 0 <= i < |prefix| && Answers(prefix[i], id) && prefix[i].content.Some?
          && earlier[id] == ResponseOf(prefix[i]) && forall j | i < j < |prefix| :: !Answers(prefix[j], id);
        assert ms[i] == prefix[i];
        assert forall j | i < j < |ms| :: !Answers(ms[j], id) by {
          forall j | i < j < |ms|
            ensures !Answers(ms[j], id)
          {
            if j < |prefix| {
              assert ms[j] == prefix[j];
            }
          }
        }
      }
    }
  }

  lemma LastAnswerUnchanged(prefix: seq<Message>, last: Message, earlier: map<string, ToolResponse>)
    requires !(last.role == Tool && last.toolCallId.Some? && last.toolCallId.value != "")
    requires forall id | id in earlier :: IsLastAnswer(prefix, id, earlier[id])
    ensures forall id | id in earlier :: IsLastAnswer(prefix + [last], id, earlier[id])
  {
    var ms := prefix + [last];
    forall id | id in earlier
      ensures IsLastAnswer(ms, id, earlier[id])
    {
      var i :| 0 <= i < |prefix| && Answers(prefix[i], id) && prefix[i].content.Some?
        && earlier[id] == ResponseOf(prefix[i]) && forall j | i < j < |prefix| :: !Answers(prefix[j], id);
      assert ms[i] == prefix[i];
      assert forall j | i < j < |ms| :: !Answers(ms[j], id) by {
        forall j | i < j < |ms|
          ensures !Answers(ms[j], id)
        {
          if j < |prefix| {
            assert ms[j] == prefix[j];
          }
        }
      }
    }
  }

  /** A later response for the same id replaces the earlier one. */
  lemma LaterResponseWins(ms: seq<Message>, i: int, id: string)
    requires ResponseMap(ms).Success?
    requires 0 <= i < |ms| && Answers(ms[i], id)
    requires forall j | i < j < |ms| :: !Answers(ms[j], id)
    ensures id in ResponseMap(ms).value && ResponseMap(ms).value[id] == ResponseOf(ms[i])
  {
    var r := ResponseMap(ms).value;
    ResponseMapKeepsLast(ms);
    assert id in r;
    var k :| 0 <= k < |ms| && Answers(ms[k], id) && ms[k].content.Some? && r[id] == ResponseOf(ms[k])
      && forall j | k < j < |ms| :: !Answers(ms[j], id);
    assert k == i;
  }
}

=== FILE: dedup.dfy ===
/** Sliding-window duplicate removal: the second stage of the sanitiser (`deduplicateMessages`). */
module Dedup {
  import opened Messages

  /** `xs` can be obtained from `ys` by deleting elements, keeping the order of the rest. */
  predicate IsSubsequence<T(==)>(xs: seq<T>, ys: seq<T>)
    decreases |ys|
  {
    if |ys| == 0 then |xs| == 0
    else
      || IsSubsequence(xs, ys[..|ys| - 1])
      || (|xs| > 0 && xs[|xs| - 1] == ys[|ys| - 1] && IsSubsequence(xs[..|xs| - 1], ys[..|ys| - 1]))
  }

  lemma {:induction false} SubsequenceMembers<T>(xs: seq<T>, ys: seq<T>)
    requires IsSubsequence(xs, ys)
    ensures forall x | x in xs :: x in ys
    decreases |ys|
  {
    if |ys| > 0 {
      if IsSubsequence(xs, ys[..|ys| - 1]) {
        SubsequenceMembers(xs, ys[..|ys| - 1]);
      } else {
        SubsequenceMembers(xs[..|xs| - 1], ys[..|ys| - 1]);
        assert xs == xs[..|xs| - 1] + [xs[|xs| - 1]];
      }
    }
  }

  /** The configured window after JavaScript's `deduplicationWindow || 3`: zero stands for three. */
  function WindowOrDefault(configured: int): (w: int)
    ensures w != 0
    ensures configured != 0 ==> w == configured
  {
    if configured == 0 then 3 else configured
  }

  function Min(a: int, b: int): int {
    if a <= b then a else b
  }

  /**
    `kept.slice(-w)`, the kept messages a candidate is compared with: for a positive `w` the last `w` of
    them, for a negative `w` all but the first `-w`.
  */
  function Recent(kept: seq<Message>, w: int): (r: seq<Message>)
    ensures w > 0 ==> |r| == Min(w, |kept|)
    ensures w < 0 ==> |r| == |kept| - Min(-w, |kept|)
    ensures |r| <= |kept| && r == kept[|kept| - |r|..]
  {
    if w > 0 then kept[|kept| - Min(w, |kept|)..] else kept[Min(-w, |kept|)..]
  }

  /** A candidate is kept when no recently kept message has its fingerprint. */
  predicate ShouldInclude(m: Message, kept: seq<Message>, w: int) {
    forall x | x in Recent(kept, w) :: FingerprintOf(x) != FingerprintOf(m)
  }

  /** No kept message repeats the fingerprint of one in the window before it. */
  predicate WindowDistinct(r: seq<Message>, w: int) {
    forall j | 0 <= j < |r| :: ShouldInclude(r[j], r[..j], w)
  }

  /** Every message of `ms` has its fingerprint represented in `r`. */
  predicate FingerprintsCovered(ms: seq<Message>, r: seq<Message>) {
    forall i | 0 <= i < |ms| :: exists x | x in r :: FingerprintOf(x) == FingerprintOf(ms[i])
  }

  /** The loop of `deduplicateMessages`: each message is compared with the window of messages kept so far. */
  function DedupLoop(ms: seq<Message>, w: int): (r: seq<Message>)
    ensures |r| <= |ms|
  {
    if |ms| == 0 then []
    else
      var kept := DedupLoop(ms[..|ms| - 1], w);
      if ShouldInclude(ms[|ms| - 1], kept, w) then kept + [ms[|ms| - 1]] else kept
  }

  /** The kept messages appear in the input, in input order. */
  lemma {:induction false} DedupSubsequence(ms: seq<Message>, w: int)
    ensures IsSubsequence(DedupLoop(ms, w), ms)
  {
    if |ms| > 0 {
      var prefix := ms[..|ms| - 1];
      var kept := DedupLoop(prefix, w);
      DedupSubsequence(prefix, w);
      if ShouldInclude(ms[|ms| - 1], kept, w) {
        var r := kept + [ms[|ms| - 1]];
        assert r[..|r| - 1] == kept;
      }
    }
  }

  /** No kept message shares a fingerprint with a message in the window kept before it. */
  lemma {:induction false} DedupWindowDistinct(ms: seq<Message>, w: int)
    ensures WindowDistinct(DedupLoop(ms, w), w)
  {
    if |ms| > 0 {
      var prefix := ms[..|ms| - 1];
      var m := ms[|ms| - 1];
      var kept := DedupLoop(prefix, w);
      DedupWindowDistinct(prefix, w);
      if ShouldInclude(m, kept, w) {
        AppendKeepsDistinct(kept, m, w);
      }
    }
  }

  lemma AppendKeepsDistinct(kept: seq<Message>, m: Message, w: int)
    requires WindowDistinct(kept, w) && ShouldInclude(m, kept, w)
    ensures WindowDistinct(kept + [m], w)
  {
    var r := kept + [m];
    forall j | 0 <= j < |r|
      ensures ShouldInclude(r[j], r[..j], w)
    {
      if j < |kept| {
        assert r[..j] == kept[..j] && r[j] == kept[j];
      } else {
        assert r[..j] == kept;
      }
    }
  }

  /** One step of the loop: the next message is appended exactly when no recently kept message matches it. */
  lemma DedupLoopSnoc(p: seq<Message>, m: Message, w: int)
    ensures DedupLoop(p + [m], w) ==
      if ShouldInclude(m, DedupLoop(p, w), w) then DedupLoop(p, w) + [m] else DedupLoop(p, w)
  {
    assert (p + [m])[..|p|] == p;
  }

  /** The loop never revises what it has kept: the result for a prefix of the input is a prefix of the result. */
  lemma {:induction false} DedupPrefix(ms: seq<Message>, i: int, w: int)
    requires 0 <= i <= |ms|
    ensures DedupLoop(ms[..i], w) <= DedupLoop(ms, w)
    decreases |ms| - i
  {
    if i == |ms| {
      assert ms[..i] == ms;
    } else {
      var prefix := ms[..|ms| - 1];
      assert prefix[..i] == ms[..i];
      DedupPrefix(prefix, i, w);
      var before, kept, after := DedupLoop(ms[..i], w), DedupLoop(prefix, w), DedupLoop(ms, w);
      assert kept <= after;
      assert before <= after by {
        assert |before| <= |kept| <= |after|;
        forall k | 0 <= k < |before|
          ensures before[k] == after[k]
        {
          assert before[k] == kept[k];
        }
      }
    }
  }

  /**
    Message `i` is decided once, against the messages kept before it: when it passes the window test it is
    kept right after them and stays in the output, and when it fails the test nothing is added for it.
  */
  lemma DedupStep(ms: seq<Message>, i: int, w: int)
    requires 0 <= i < |ms|
    ensures ShouldInclude(ms[i], DedupLoop(ms[..i], w), w) ==> DedupLoop(ms[..i], w) + [ms[i]] <= DedupLoop(ms, w)
    ensures !ShouldInclude(ms[i], DedupLoop(ms[..i], w), w) ==> DedupLoop(ms[..i + 1], w) == DedupLoop(ms[..i], w)
  {
    assert ms[..i + 1] == ms[..i] + [ms[i]];
    DedupLoopSnoc(ms[..i], ms[i], w);
    DedupPrefix(ms, i + 1, w);
  }

  /** The first message with a given fingerprint is always kept, in place after the messages kept before it. */
  lemma FirstOccurrenceKept(ms: seq<Message>, i: int, w: int)
    requires 0 <= i < |ms|
    requires FirstOfItsFingerprint(ms, i)
    ensures DedupLoop(ms[..i], w) + [ms[i]] <= DedupLoop(ms, w)
  {
    var kept := DedupLoop(ms[..i], w);
    DedupSubsequence(ms[..i], w);
    SubsequenceMembers(kept, ms[..i]);
    var recent := Recent(kept, w);
    forall x | x in recent
      ensures FingerprintOf(x) != FingerprintOf(ms[i])
    {
      var k :| 0 <= k < |recent| && recent[k] == x;
      assert x == kept[|kept| - |recent| + k];
      assert x in ms[..i];
      var j :| 0 <= j < i && ms[..i][j] == x;
      assert ms[j] == x;
    }
    DedupStep(ms, i, w);
  }

  /** A dropped message always has a kept message with its fingerprint: no distinct content is lost. */
  lemma {:induction false} DedupCoversFingerprints(ms: seq<Message>, w: int)
    ensures FingerprintsCovered(ms, DedupLoop(ms, w))
  {
    if |ms| > 0 {
      var prefix := ms[..|ms| - 1];
      var m := ms[|ms| - 1];
      assert ms == prefix + [m];
      DedupCoversFingerprints(prefix, w);
      DedupLoopSnoc(prefix, m, w);
      CoverStep(prefix, m, DedupLoop(prefix, w), DedupLoop(ms, w), w);
    }
  }

  lemma CoverStep(prefix: seq<Message>, m: Message, kept: seq<Message>, r: seq<Message>, w: int)
    requires FingerprintsCovered(prefix, kept)
    requires r == if ShouldInclude(m, kept, w) then kept + [m] else kept
    ensures FingerprintsCovered(prefix + [m], r)
  {
    var ms := prefix + [m];
    forall i | 0 <= i < |ms|
      ensures exists x | x in r :: FingerprintOf(x) == FingerprintOf(ms[i])
    {
      if i < |prefix| {
        assert ms[i] == prefix[i];
        var x :| x in kept && FingerprintOf(x) == FingerprintOf(prefix[i]);
        assert x in r && FingerprintOf(x) == FingerprintOf(ms[i]);
      } else if ShouldInclude(m, kept, w) {
        assert ms[i] == m;
        assert r[|r| - 1] in r && FingerprintOf(r[|r| - 1]) == FingerprintOf(ms[i]);
      } else {
        assert ms[i] == m;
        var x :| x in Recent(kept, w) && FingerprintOf(x) == FingerprintOf(m);
        assert x in r && FingerprintOf(x) == FingerprintOf(ms[i]);
      }
    }
  }

  /** `deduplicateMessages`: lists of at most one message are returned as they are. */
  function Deduplicate(ms: seq<Message>, configured: int): (r: seq<Message>)
    ensures |r| <= |ms|
  {
    if |ms| <= 1 then ms else DedupLoop(ms, WindowOrDefault(configured))
  }

  /**
    The deduplicated list is an order-preserving subsequence of the input in which no message repeats a
    fingerprint from the window before it, and every input message's fingerprint is still represented.
  */
  lemma DeduplicateGuarantees(ms: seq<Message>, configured: int)
    ensures IsSubsequence(Deduplicate(ms, configured), ms)
    ensures WindowDistinct(Deduplicate(ms, configured), WindowOrDefault(configured))
    ensures FingerprintsCovered(ms, Deduplicate(ms, configured))
    ensures forall x | x in Deduplicate(ms, configured) :: x in ms
  {
    var w := WindowOrDefault(configured);
    ShortcutAgreesWithLoop(ms, configured);
    DedupSubsequence(ms, w);
    SubsequenceMembers(Deduplicate(ms, configured), ms);
    DedupWindowDistinct(ms, w);
    DedupCoversFingerprints(ms, w);
  }

  /** No earlier message of `ms` has the fingerprint of message `i`. */
  predicate FirstOfItsFingerprint(ms: seq<Message>, i: int)
    requires 0 <= i < |ms|
  {
    forall j | 0 <= j < i :: FingerprintOf(ms[j]) != FingerprintOf(ms[i])
  }

  /**
    Message `i` is decided against the messages kept before it: when it passes the window test it is kept in
    place in the result, and when it fails the test nothing is added for it.
  */
  predicate DecidedInPlace(ms: seq<Message>, i: int, w: int, r: seq<Message>)
    requires 0 <= i < |ms|
  {
    var kept := DedupLoop(ms[..i], w);
    if ShouldInclude(ms[i], kept, w) then kept + [ms[i]] <= r else DedupLoop(ms[..i + 1], w) == kept
  }

  /** The other half of the guarantees: every message passing the window test is kept, in place. */
  lemma DeduplicateDecides(ms: seq<Message>, configured: int)
    ensures forall i | 0 <= i < |ms| :: DecidedInPlace(ms, i, WindowOrDefault(configured), Deduplicate(ms, configured))
  {
    var w := WindowOrDefault(configured);
    ShortcutAgreesWithLoop(ms, configured);
    forall i | 0 <= i < |ms|
      ensures DecidedInPlace(ms, i, w, Deduplicate(ms, configured))
    {
      DedupStep(ms, i, w);
    }
  }

  /** The first message with a given fingerprint is always kept, whatever the window. */
  lemma DeduplicateKeepsFirst(ms: seq<Message>, configured: int)
    ensures forall i | 0 <= i < |ms| && FirstOfItsFingerprint(ms, i) :: ms[i] in Deduplicate(ms, configured)
  {
    var w := WindowOrDefault(configured);
    ShortcutAgreesWithLoop(ms, configured);
    forall i | 0 <= i < |ms| && FirstOfItsFingerprint(ms, i)
      ensures ms[i] in Deduplicate(ms, configured)
    {
      FirstOccurrenceKept(ms, i, w);
      var kept := DedupLoop(ms[..i], w);
      assert Deduplicate(ms, configured)[|kept|] == (kept + [ms[i]])[|kept|] == ms[i];
    }
  }

  /** The early return for short lists gives what the loop would: it is only a shortcut. */
  lemma ShortcutAgreesWithLoop(ms: seq<Message>, configured: int)
    ensures Deduplicate(ms, configured) == DedupLoop(ms, WindowOrDefault(configured))
  {
    if |ms| == 1 {
      var w := WindowOrDefault(configured);
      assert ms[..|ms| - 1] == [];
      assert |Recent([], w)| == 0;
      assert ShouldInclude(ms[0], [], w);
      assert DedupLoop(ms, w) == [] + [ms[0]];
    } else if |ms| == 0 {
      assert DedupLoop(ms, WindowOrDefault(configured)) == [];
    }
  }

  /** With a positive window, two kept messages at most `w` places apart never share a fingerprint. */
  lemma {:induction false} NoRepeatWithinWindow(r: seq<Message>, w: int, i: int, j: int)
    requires w > 0 && WindowDistinct(r, w)
    requires 0 <= i < j < |r| && j - i <= w
    ensures FingerprintOf(r[i]) != FingerprintOf(r[j])
  {
    assert ShouldInclude(r[j], r[..j], w);
    var recent := Recent(r[..j], w);
    assert recent[i - (j - |recent|)] == r[i];
  }

  /** A list whose window is already free of repeats passes through unchanged. */
  lemma {:induction false} DistinctUnchanged(ms: seq<Message>, w: int)
    requires WindowDistinct(ms, w)
    ensures DedupLoop(ms, w) == ms
  {
    if |ms| > 0 {
      var prefix := ms[..|ms| - 1];
      assert forall j | 0 <= j < |prefix| :: prefix[..j] == ms[..j] && prefix[j] == ms[j];
      DistinctUnchanged(prefix, w);
      assert ShouldInclude(ms[|ms| - 1], ms[..|ms| - 1], w);
      assert prefix + [ms[|ms| - 1]] == ms;
    }
  }

  /** Deduplicating twice gives the same list as deduplicating once. */
  lemma DeduplicateIdempotent(ms: seq<Message>, configured: int)
    ensures Deduplicate(Deduplicate(ms, configured), configured) == Deduplicate(ms, configured)
  {
    var r := Deduplicate(ms, configured);
    DeduplicateGuarantees(ms, configured);
    ShortcutAgreesWithLoop(r, configured);
    DistinctUnchanged(r, WindowOrDefault(configured));
  }

  /** A list in which no two messages share a fingerprint passes through unchanged, whatever the window. */
  lemma DistinctFingerprintsUnchanged(ms: seq<Message>, configured: int)
    requires forall i, j | 0 <= i < j < |ms| :: FingerprintOf(ms[i]) != FingerprintOf(ms[j])
    ensures Deduplicate(ms, configured) == ms
  {
    var w := WindowOrDefault(configured);
    forall j | 0 <= j < |ms|
      ensures ShouldInclude(ms[j], ms[..j], w)
    {
      DistinctIncluded(ms, j, w);
    }
    ShortcutAgreesWithLoop(ms, configured);
    DistinctUnchanged(ms, w);
  }

  /** In a list without repeated fingerprints, each message is kept after the ones before it. */
  lemma DistinctIncluded(ms: seq<Message>, j: int, w: int)
    requires forall i, j | 0 <= i < j < |ms| :: FingerprintOf(ms[i]) != FingerprintOf(ms[j])
    requires 0 <= j < |ms|
    ensures ShouldInclude(ms[j], ms[..j], w)
  {
    var kept := ms[..j];
    var recent := Recent(kept, w);
    forall x | x in recent
      ensures FingerprintOf(x) != FingerprintOf(ms[j])
    {
      var k :| 0 <= k < |recent| && recent[k] == x;
      var i := j - |recent| + k;
      assert x == kept[i] == ms[i];
      assert FingerprintOf(ms[i]) != FingerprintOf(ms[j]);
    }
  }


  function Repeat(m: Message, n: nat): (r: seq<Message>)
    ensures |r| == n && forall x | x in r :: x == m
  {
    if n == 0 then [] else Repeat(m, n - 1) + [m]
  }

  /** With a positive window, a run of identical messages leaves only what its first message left. */
  lemma {:induction false} RunCollapses(p: seq<Message>, m: Message, k: nat, w: int)
    requires w > 0 && k >= 1
    ensures DedupLoop(p + Repeat(m, k), w) == DedupLoop(p + [m], w)
  {
    if k > 1 {
      RunCollapses(p, m, k - 1, w);
      assert p + Repeat(m, k) == (p + Repeat(m, k - 1)) + [m];
      DedupLoopSnoc(p + Repeat(m, k - 1), m, w);
      RepeatBlocked(p, m, w);
    } else {
      assert Repeat(m, 1) == [m];
    }
  }

  /** After a message has been seen, a positive window still holds a message with its fingerprint. */
  lemma RepeatBlocked(p: seq<Message>, m: Message, w: int)
    requires w > 0
    ensures !ShouldInclude(m, DedupLoop(p + [m], w), w)
  {
    var kept := DedupLoop(p, w);
    var first := DedupLoop(p + [m], w);
    DedupLoopSnoc(p, m, w);
    if ShouldInclude(m, kept, w) {
      assert first == kept + [m];
      assert first[|first| - 1] in Recent(first, w);
    } else {
      assert first == kept;
    }
  }

  /** Four identical messages with the default window come out as one (the first). */
  lemma DuplicateFlood(m: Message)
    ensures Deduplicate(Repeat(m, 4), 3) == [m]
  {
    RunCollapses([], m, 4, 3);
    assert [] + Repeat(m, 4) == Repeat(m, 4);
    DedupLoopSnoc([], m, 3);
    assert [] + [m] == [m];
    assert Recent([], 3) == [];
  }

  /** A window of 0 is read as 3, so it collapses repeats rather than switching deduplication off. */
  lemma ZeroWindowStillDeduplicates(m: Message)
    ensures Deduplicate(Repeat(m, 2), 0) == [m]
  {
    RunCollapses([], m, 2, 3);
    assert [] + Repeat(m, 2) == Repeat(m, 2);
    DedupLoopSnoc([], m, 3);
    assert [] + [m] == [m];
    assert Recent([], 3) == [];
  }

  /** A negative window skips the oldest kept messages, so identical neighbours can both survive. */
  lemma NegativeWindowKeepsRepeats(m: Message)
    ensures Deduplicate(Repeat(m, 3), -1) == Repeat(m, 2)
  {
    var one := Repeat(m, 1);
    var two := Repeat(m, 2);
    var three := Repeat(m, 3);
    assert one == [] + [m];
    assert two == one + [m];
    assert three == two + [m];
    DedupLoopSnoc([], m, -1);
    assert DedupLoop(one, -1) == one by {
      assert Recent([], -1) == [];
    }
    DedupLoopSnoc(one, m, -1);
    assert DedupLoop(two, -1) == two by {
      assert Recent(one, -1) == [];
    }
    DedupLoopSnoc(two, m, -1);
    assert DedupLoop(three, -1) == two by {
      assert two[1] in Recent(two, -1);
    }
  }
}

=== FILE: handler.dfy ===
/**
  The two pure pieces of the Llama request handler: the single-tool-call guard applied to the sanitised list
  (`validateToolCallConstraints`) and the line decoding of a streamed response chunk (the loop body of
  `handleStreamingCompletion`). Network access, the body reader and the generator mechanics are not modelled.
*/
module LlamaHandler {
  import opened Wrappers
  import opened Text
  import opened Json
  import opened Messages
  import opened Sanitizer

  /** An assistant message that carries more than one tool call. */
  predicate Offends(m: Message) {
    m.role == Assistant && |Calls(m)| > 1
  }

  /** The rejection raised by the guard, carrying the offending tool-call count. */
  datatype Violation = TooManyToolCalls(count: nat)

  /**
    `validateToolCallConstraints`: rejects exactly the lists in which some assistant message has more than
    one tool call, reporting the count of the first such message.
  */
  function ValidateToolCallConstraints(ms: seq<Message>): (r: Result<(), Violation>)
    ensures r.Success? <==> OneCallPerAssistant(ms)
    ensures r.Failure? ==> exists i | 0 <= i < |ms| ::
      && Offends(ms[i])
      && r.error == TooManyToolCalls(|Calls(ms[i])|)
      && forall j | 0 <= j < i :: !Offends(ms[j])
  {
    if |ms| == 0 then Success(())
    else
      var rest := ValidateToolCallConstraints(ms[1..]);
      assert forall i | 0 < i < |ms| :: ms[i] == ms[1..][i - 1];
      if ms[0].role == Assistant && ms[0].toolCalls.Some? && |ms[0].toolCalls.value| > 1 then
        Failure(TooManyToolCalls(|ms[0].toolCalls.value|))
      else if rest.Failure? then
        assert exists i | 0 <= i < |ms| ::
          && Offends(ms[i]) && rest.error == TooManyToolCalls(|Calls(ms[i])|) && forall j | 0 <= j < i :: !Offends(ms[j]) by {
          var i :| 0 <= i < |ms[1..]| && Offends(ms[1..][i]) && rest.error == TooManyToolCalls(|Calls(ms[1..][i])|)
            && forall j | 0 <= j < i :: !Offends(ms[1..][j]);
          assert ms[i + 1] == ms[1..][i];
          assert forall j | 0 < j < i + 1 :: ms[j] == ms[1..][j - 1];
        }
        rest
      else
        rest
  }

  /** A message of another role never affects the verdict, whatever tool calls it carries. */
  lemma {:induction false} NonAssistantNeverRejected(a: seq<Message>, m: Message, b: seq<Message>)
    requires m.role != Assistant
    ensures ValidateToolCallConstraints(a + [m] + b) == ValidateToolCallConstraints(a + b)
  {
    if |a| == 0 {
      assert (a + [m] + b)[1..] == b;
      assert a + b == b;
    } else {
      NonAssistantNeverRejected(a[1..], m, b);
      assert (a + [m] + b)[1..] == a[1..] + [m] + b;
      assert (a + b)[1..] == a[1..] + b;
      assert (a + [m] + b)[0] == a[0] == (a + b)[0];
    }
  }

  /**
    The guard both request handlers apply: sanitise, then validate. A violation is thrown to the caller
    before any request is sent.
  */
  function SanitizeAndValidate(ms: seq<Message>, window: int, codec: Codec): (r: Result<seq<Message>, Violation>)
    ensures r.Success? ==> r.value == Sanitize(ms, window, codec) && OneCallPerAssistant(r.value)
    ensures r.Failure? ==> !OneCallPerAssistant(Sanitize(ms, window, codec))
  {
    var out := Sanitize(ms, window, codec);
    match ValidateToolCallConstraints(out)
    case Success(_) => Success(out)
    case Failure(v) => Failure(v)
  }

  /** When the sanitiser's stages succeed, the guard always lets the sanitised list through. */
  lemma SanitizedOutputAccepted(ms: seq<Message>, window: int, codec: Codec)
    requires Stages(ms, window, codec).Success?
    ensures SanitizeAndValidate(ms, window, codec) == Success(Stages(ms, window, codec).value)
  {
  }

  /** The fallback's output can be rejected: the guard reports the two calls of the `null`-argument sample. */
  lemma FallbackRejected(codec: Codec)
    requires codec.parse("null") == Some(Value(Null))
    ensures SanitizeAndValidate(NullArgumentsSample(), DefaultWindow, codec) == Failure(TooManyToolCalls(2))
  {
    FallbackKeepsSeveralCalls(codec);
    var ms := NullArgumentsSample();
    var v := ValidateToolCallConstraints(ms);
    assert Offends(ms[0]) && |Calls(ms[0])| == 2;
    var i :| 0 <= i < |ms| && Offends(ms[i]) && v.error == TooManyToolCalls(|Calls(ms[i])|)
      && forall j | 0 <= j < i :: !Offends(ms[j]);
    assert i == 0;
  }

  /** What one chunk yields: the parsed payloads in line order, and whether `[DONE]` ended the stream. */
  datatype ChunkResult = ChunkResult(payloads: seq<Json>, done: bool)

  /** The marker payload that ends the stream. */
  const DoneMarker := "[DONE]"

  /** The event line that ends the stream. */
  const DoneLine := "data: [DONE]"

  /** The payload of an event line: what follows `data: `. */
  function DataPayload(line: string): (r: Option<string>)
    ensures r.Some? <==> StartsWith(line, "data: ")
    ensures r.Some? ==> line == "data: " + r.value
  {
    if StartsWith(line, "data: ") then Some(line[6..]) else None
  }

  /** The lines the loop visits: the non-blank ones, in order. */
  function NonBlank(lines: seq<string>): (r: seq<string>)
    ensures |r| <= |lines|
    ensures forall i | 0 <= i < |r| :: !IsBlank(r[i])
  {
    if |lines| == 0 then []
    else (if IsBlank(lines[0]) then [] else [lines[0]]) + NonBlank(lines[1..])
  }

  /** The loop visits exactly the non-blank lines. */
  lemma {:induction false} NonBlankMembers(lines: seq<string>)
    ensures forall l :: l in NonBlank(lines) <==> l in lines && !IsBlank(l)
  {
    if |lines| > 0 {
      NonBlankMembers(lines[1..]);
      assert forall l | l in lines :: l == lines[0] || l in lines[1..];
      assert forall l | l in lines[1..] :: l in lines;
    }
  }

  /** The loop over the lines of one chunk. */
  function DecodeLines(lines: seq<string>, parse: string -> Option<Json>): (r: ChunkResult)
    ensures |r.payloads| <= |lines|
  {
    if |lines| == 0 then ChunkResult([], false)
    else
      var rest := DecodeLines(lines[1..], parse);
      match DataPayload(lines[0])
      case None => rest
      case Some(data) =>
        if data == DoneMarker then ChunkResult([], true)
        else match parse(data)
          case None => rest
          case Some(j) => ChunkResult([j] + rest.payloads, rest.done)
  }

  /** One chunk: split on newlines, drop blank lines, decode. */
  function DecodeChunk(chunk: string, parse: string -> Option<Json>): ChunkResult {
    DecodeLines(NonBlank(Split(chunk, '\n')), parse)
  }

  /** The payloads of all event lines, in order. */
  function DataPayloads(lines: seq<string>): (r: seq<string>)
    ensures |r| <= |lines|
  {
    if |lines| == 0 then []
    else
      match DataPayload(lines[0])
      case Some(data) => [data] + DataPayloads(lines[1..])
      case None => DataPayloads(lines[1..])
  }

  /** The payloads before the first `[DONE]`. */
  function UntilDone(ps: seq<string>): (r: seq<string>)
    ensures DoneMarker !in r
    ensures r <= ps
    ensures DoneMarker in ps ==> |r| < |ps| && ps[|r|] == DoneMarker
    ensures DoneMarker !in ps ==> r == ps
  {
    if |ps| == 0 then []
    else if ps[0] == DoneMarker then []
    else [ps[0]] + UntilDone(ps[1..])
  }

  /** The payloads that parse, parsed, in order. */
  function ParsedOnly(ps: seq<string>, parse: string -> Option<Json>): (r: seq<Json>)
    ensures |r| <= |ps|
  {
    if |ps| == 0 then []
    else
      var rest := ParsedOnly(ps[1..], parse);
      match parse(ps[0])
      case Some(j) => [j] + rest
      case None => rest
  }

  /**
    The decoding loop agrees with a description in three independent steps: take the payloads of the
    `data: ` lines, cut them at the first `[DONE]`, and keep the ones that parse. The chunk ends the stream
    exactly when some event line carries `[DONE]`.
  */
  lemma {:induction false} DecodeMatchesReference(lines: seq<string>, parse: string -> Option<Json>)
    ensures DecodeLines(lines, parse).payloads == ParsedOnly(UntilDone(DataPayloads(lines)), parse)
    ensures DecodeLines(lines, parse).done <==> DoneMarker in DataPayloads(lines)
  {
    if |lines| > 0 {
      DecodeMatchesReference(lines[1..], parse);
      match DataPayload(lines[0])
      case None =>
      case Some(data) =>
        assert DataPayloads(lines) == [data] + DataPayloads(lines[1..]);
        if data != DoneMarker {
          assert UntilDone(DataPayloads(lines)) == [data] + UntilDone(DataPayloads(lines[1..]));
        }
    }
  }

  /** Blank lines never carry an event, so dropping them first changes nothing. */
  lemma {:induction false} BlankLinesIgnored(lines: seq<string>, parse: string -> Option<Json>)
    ensures DecodeLines(NonBlank(lines), parse) == DecodeLines(lines, parse)
  {
    if |lines| > 0 {
      BlankLinesIgnored(lines[1..], parse);
      BlankLineIsNoEvent(lines[0]);
      if IsBlank(lines[0]) {
        assert NonBlank(lines) == NonBlank(lines[1..]);
      } else {
        assert NonBlank(lines) == [lines[0]] + NonBlank(lines[1..]);
        assert NonBlank(lines)[1..] == NonBlank(lines[1..]);
      }
    }
  }

  lemma BlankLineIsNoEvent(line: string)
    ensures IsBlank(line) ==> DataPayload(line).None?
  {
    if StartsWith(line, "data: ") {
      assert line[0] == "data: "[0];
      assert !IsWhitespace(line[0]);
    }
  }

  /** Decoding consecutive lines: once `[DONE]` is seen nothing later is decoded, otherwise the results concatenate. */
  lemma {:induction false} DecodeLinesAppend(a: seq<string>, b: seq<string>, parse: string -> Option<Json>)
    ensures DecodeLines(a, parse).done ==> DecodeLines(a + b, parse) == DecodeLines(a, parse)
    ensures !DecodeLines(a, parse).done ==>
      DecodeLines(a + b, parse) == ChunkResult(DecodeLines(a, parse).payloads + DecodeLines(b, parse).payloads, DecodeLines(b, parse).done)
  {
    if |a| == 0 {
      assert a + b == b;
    } else {
      DecodeLinesAppend(a[1..], b, parse);
      assert (a + b)[1..] == a[1..] + b;
      assert (a + b)[0] == a[0];
      var ra := DecodeLines(a[1..], parse);
      var rb := DecodeLines(b, parse);
      match DataPayload(a[0])
      case None =>
      case Some(data) =>
        if data != DoneMarker && parse(data).Some? {
          assert [parse(data).value] + (ra.payloads + rb.payloads) == ([parse(data).value] + ra.payloads) + rb.payloads;
        }
    }
  }

  /** A `[DONE]` line ends the chunk: no line after it is decoded, and the result says the stream is done. */
  lemma DoneEndsChunk(before: seq<string>, after: seq<string>, parse: string -> Option<Json>)
    ensures DecodeLines(before + [DoneLine] + after, parse) == DecodeLines(before + [DoneLine], parse)
    ensures DecodeLines(before + [DoneLine], parse).done
  {
    assert DataPayload(DoneLine) == Some(DoneMarker) by {
      assert StartsWith(DoneLine, "data: ");
    }
    assert DecodeLines([DoneLine], parse).done;
    DecodeLinesAppend(before, [DoneLine], parse);
    DecodeLinesAppend(before + [DoneLine], after, parse);
  }

  /**
    At chunk level: in the text `head`, newline, `data: [DONE]`, newline, `tail`, nothing of `tail` is
    decoded, and the chunk ends the stream.
  */
  lemma DoneEndsChunkText(head: string, tail: string, parse: string -> Option<Json>)
    ensures DecodeChunk(head + "\n" + DoneLine + "\n" + tail, parse).done
    ensures DecodeChunk(head + "\n" + DoneLine + "\n" + tail, parse) == DecodeChunk(head + "\n" + DoneLine, parse)
  {
    var hs := Split(head, '\n');
    var ts := Split(tail, '\n');
    assert '\n' !in DoneLine;
    SplitAroundLine(head, DoneLine, tail);
    var before := NonBlank(hs);
    var after := NonBlank(ts);
    assert NonBlank(hs + [DoneLine] + ts) == before + [DoneLine] + after by {
      NonBlankOne(DoneLine);
      NonBlankAppend(hs, [DoneLine]);
      NonBlankAppend(hs + [DoneLine], ts);
    }
    assert NonBlank(hs + [DoneLine]) == before + [DoneLine] by {
      NonBlankOne(DoneLine);
      NonBlankAppend(hs, [DoneLine]);
    }
    DoneEndsChunk(before, after, parse);
  }

  lemma NonBlankOne(line: string)
    requires |line| > 0 && !IsWhitespace(line[0])
    ensures NonBlank([line]) == [line]
  {
    assert [line][1..] == [];
  }

  /** A line with no newline, set between two newlines, is one piece of the split. */
  lemma SplitAroundLine(head: string, line: string, tail: string)
    requires '\n' !in line
    ensures Split(head + "\n" + line + "\n" + tail, '\n') == Split(head, '\n') + [line] + Split(tail, '\n')
    ensures Split(head + "\n" + line, '\n') == Split(head, '\n') + [line]
  {
    var h, t := Split(head, '\n'), Split(tail, '\n');
    SplitPieces(line, '\n');
    calc {
      Split(head + "\n" + line + "\n" + tail, '\n');
    == { assert head + "\n" + line + "\n" + tail == head + ['\n'] + (line + ['\n'] + tail); }
      Split(head + ['\n'] + (line + ['\n'] + tail), '\n');
    == { SplitAppend(head, '\n', line + ['\n'] + tail); }
      h + Split(line + ['\n'] + tail, '\n');
    == { SplitAppend(line, '\n', tail); }
      h + ([line] + t);
    ==
      h + [line] + t;
    }
    calc {
      Split(head + "\n" + line, '\n');
    == { assert head + "\n" + line == head + ['\n'] + line; }
      Split(head + ['\n'] + line, '\n');
    == { SplitAppend(head, '\n', line); }
      h + [line];
    }
  }

  lemma {:induction false} NonBlankAppend(a: seq<string>, b: seq<string>)
    ensures NonBlank(a + b) == NonBlank(a) + NonBlank(b)
  {
    if |a| == 0 {
      assert a + b == b;
    } else {
      NonBlankAppend(a[1..], b);
      var ab := a + b;
      assert ab[0] == a[0] && ab[1..] == a[1..] + b;
      var h := if IsBlank(a[0]) then [] else [a[0]];
      calc {
        NonBlank(ab);
      ==
        h + NonBlank(a[1..] + b);
      ==
        h + (NonBlank(a[1..]) + NonBlank(b));
      ==
        (h + NonBlank(a[1..])) + NonBlank(b);
      }
    }
  }

  /** The stream as a whole: chunks are decoded in order until one of them ends the stream. */
  function DecodeStream(chunks: seq<string>, parse: string -> Option<Json>): (r: ChunkResult)
    ensures |chunks| > 0 && DecodeChunk(chunks[0], parse).done ==> r == DecodeChunk(chunks[0], parse)
  {
    if |chunks| == 0 then ChunkResult([], false)
    else
      var first := DecodeChunk(chunks[0], parse);
      if first.done then first
      else
        var rest := DecodeStream(chunks[1..], parse);
        ChunkResult(first.payloads + rest.payloads, rest.done)
  }

  /** Once the stream is done, later chunks contribute nothing. */
  lemma {:induction false} DoneEndsStream(chunks: seq<string>, later: seq<string>, parse: string -> Option<Json>)
    requires DecodeStream(chunks, parse).done
    ensures DecodeStream(chunks + later, parse) == DecodeStream(chunks, parse)
  {
    assert |chunks| > 0;
    assert (chunks + later)[0] == chunks[0];
    if !DecodeChunk(chunks[0], parse).done {
      assert (chunks + later)[1..] == chunks[1..] + later;
      DoneEndsStream(chunks[1..], later, parse);
    }
  }

  /** The lines of all chunks, chunk after chunk. */
  function ChunkLines(chunks: seq<string>): seq<string> {
    if |chunks| == 0 then [] else NonBlank(Split(chunks[0], '\n')) + ChunkLines(chunks[1..])
  }

  /** Chunk boundaries act only as line boundaries: the stream decodes like one long list of lines. */
  lemma {:induction false} StreamIsOneLineList(chunks: seq<string>, parse: string -> Option<Json>)
    ensures DecodeStream(chunks, parse) == DecodeLines(ChunkLines(chunks), parse)
  {
    if |chunks| > 0 {
      StreamIsOneLineList(chunks[1..], parse);
      DecodeLinesAppend(NonBlank(Split(chunks[0], '\n')), ChunkLines(chunks[1..]), parse);
    }
  }
}

=== FILE: json.dfy ===
/**
  The JSON values the sanitiser reads, and the JavaScript coercions it applies to them.

  `JSON.parse` and `JSON.stringify` are not modelled; they are supplied as a `Codec`.
  A parsed document is a flat object from keys to scalars, or a single scalar.
  A nested array or object is opaque and carries only what the core reads of it: its `.length` and its `String(v)`.
*/
module Json {
  import opened Wrappers

  /** One JSON value. `Num` carries JavaScript's canonical decimal rendering of the number. */
  datatype Scalar =
    | Str(s: string)
    | Num(text: string)
    | Bool(b: bool)
    | Null
    | Nested(length: Option<nat>, text: string)

  /** A parsed document: an object of scalar fields, or one bare value (`Value(Null)` is JSON `null`). */
  datatype Json = Object(fields: map<string, Scalar>) | Value(v: Scalar)

  /** The JSON parser (`None` when `JSON.parse` throws) and serialiser the program runs with. */
  datatype Codec = Codec(parse: string -> Option<Json>, stringify: Json -> string)

  /** A JavaScript `TypeError` thrown by the core. */
  datatype TypeError =
    | PropertyOfNull(property: string)
    | MethodOfUndefined(methodName: string)

  predicate IsNull(j: Json) {
    j == Value(Null)
  }

  /**
    `String(v)` and the `${v}` template interpolation of a property read; `None` is `undefined`.
    A number and the string of its digits render alike, which is what lets `10` stand for `"10"`.
  */
  function ToStr(v: Option<Scalar>): string {
    match v
    case None => "undefined"
    case Some(Str(s)) => s
    case Some(Num(t)) => t
    case Some(Bool(b)) => if b then "true" else "false"
    case Some(Null) => "null"
    case Some(Nested(_, t)) => t
  }

  /** JavaScript truthiness of a property read (`-0` already renders as `"0"`; JSON has no `NaN`). */
  predicate Truthy(v: Option<Scalar>) {
    match v
    case None => false
    case Some(Str(s)) => s != ""
    case Some(Num(t)) => t != "0"
    case Some(Bool(b)) => b
    case Some(Null) => false
    case Some(Nested(_, _)) => true
  }

  /**
    `j.key` for an ordinary property name: a field of an object, `undefined` on any other non-null value,
    and a `TypeError` on `null`.
  */
  function Property(j: Json, key: string): (r: Result<Option<Scalar>, TypeError>)
    ensures r.Failure? <==> IsNull(j)
    ensures r.Success? && r.value.Some? ==> j.Object? && key in j.fields && j.fields[key] == r.value.value
    ensures j.Object? && key in j.fields ==> r == Success(Some(j.fields[key]))
    ensures r.Success? ==> r.value == Lookup(j, key)
  {
    match j
    case Object(fields) => Success(if key in fields then Some(fields[key]) else None)
    case Value(Null) => Failure(PropertyOfNull(key))
    case Value(_) => Success(None)
  }

  /** The keys `Object.keys` lists, for a value that is not `null`. */
  function Keys(j: Json): set<string> {
    match j
    case Object(fields) => fields.Keys
    case Value(_) => {}
  }

  /** `j[key]` with `undefined` for a missing key, for a value that is not `null`. */
  function Lookup(j: Json, key: string): Option<Scalar> {
    match j
    case Object(fields) => if key in fields then Some(fields[key]) else None
    case Value(_) => None
  }
}

=== FILE: messages.dfy ===
/**
  The chat messages of the OpenAI tool-calling protocol, as the sanitiser sees them.

  A tool call's `id` and function `name` are strings in which `""` also stands for a missing field: the
  sanitiser only tests them for truthiness, and a missing `function` object is treated like a missing name.
  The `arguments` are a string as the message type requires; a missing `arguments` field is not modelled.
  A message's `content` and `tool_call_id` are optional because serialisation and `toLowerCase` tell an
  absent value apart from an empty one.
*/
module Messages {
  import opened Wrappers

  /** The message role; `Other` holds any role text outside the three the protocol defines. */
  datatype Role = User | Assistant | Tool | Other(text: string)

  /** A function call requested by the assistant (the constant `type: "function"` is left implicit). */
  datatype ToolCall = ToolCall(id: string, name: string, arguments: string)

  datatype Message = Message(
    role: Role,
    content: Option<string>,
    name: Option<string>,
    toolCalls: Option<seq<ToolCall>>,
    toolCallId: Option<string>)

  /** `msg.tool_calls || []`. */
  function Calls(m: Message): seq<ToolCall> {
    m.toolCalls.GetOr([])
  }

  /** The content is truthy: present and non-empty. */
  predicate HasContent(m: Message) {
    m.content.Some? && m.content.value != ""
  }

  /** An assistant turn that requests at least one tool call. */
  predicate HasCallBatch(m: Message) {
    m.role == Assistant && m.toolCalls.Some? && |m.toolCalls.value| > 0
  }

  /** The message is a tool response whose (truthy) `tool_call_id` is `id`. */
  predicate Answers(m: Message, id: string) {
    m.role == Tool && m.toolCallId == Some(id) && id != ""
  }

  /** The message is an assistant turn that issues a tool call with this id. */
  predicate Issues(m: Message, id: string) {
    m.role == Assistant && exists c | c in Calls(m) :: c.id == id
  }

  /** The single-tool-call constraint: no assistant message carries more than one tool call. */
  predicate OneCallPerAssistant(ms: seq<Message>) {
    forall i | 0 <= i < |ms| :: ms[i].role == Assistant ==> |Calls(ms[i])| <= 1
  }

  /** What duplicate detection compares: role, content, tool calls (absent read as none) and tool_call_id. */
  datatype Fingerprint = Fingerprint(
    role: Role,
    content: Option<string>,
    calls: seq<ToolCall>,
    toolCallId: Option<string>)

  function FingerprintOf(m: Message): (f: Fingerprint)
    ensures f.calls == Calls(m)
  {
    Fingerprint(m.role, m.content, Calls(m), m.toolCallId)
  }

  /** Two messages look the same to duplicate detection exactly when they differ at most in their name
      and in an absent-versus-empty tool-call list. */
  lemma SameFingerprint(a: Message, b: Message)
    ensures FingerprintOf(a) == FingerprintOf(b) <==>
      && a.role == b.role
      && a.content == b.content
      && a.toolCallId == b.toolCallId
      && (a.toolCalls == b.toolCalls
          || (a.toolCalls.None? && b.toolCalls == Some([]))
          || (a.toolCalls == Some([]) && b.toolCalls.None?))
  {
  }
}

=== FILE: pipeline.dfy ===
/**
  The sanitiser's entry point (`sanitizeMessages`): clean, deduplicate, find completed calls, transform; and
  the fallback taken when a stage throws.
*/
module Sanitizer {
  import opened Wrappers
  import opened Text
  import opened Json
  import opened Messages
  import opened Cleaner
  import opened Dedup
  import opened Completion
  import opened Summary
  import opened Transform

  /** The deduplication window of the default configuration. */
  const DefaultWindow := 3

  /** The four stages; a `TypeError` thrown by the response map or a summary surfaces as `Failure`. */
  function Stages(ms: seq<Message>, window: int, codec: Codec): (r: Result<seq<Message>, TypeError>)
    ensures r.Success? ==> |r.value| <= |ms| && OneCallPerAssistant(r.value)
  {
    TransformMessages(Deduplicate(Clean(ms, codec.parse), window), codec)
  }

  /**
    `sanitizeMessages`. When a stage throws, the fallback cleans the input again; since cleaning repaired the
    input's messages in place, that second cleaning sees the already cleaned messages, and so returns the
    cleaned list without the messages that cleaning left with neither content nor tool calls.
  */
  function Sanitize(ms: seq<Message>, window: int, codec: Codec): (r: seq<Message>)
    ensures |r| <= |ms|
    ensures Stages(ms, window, codec).Success? ==> OneCallPerAssistant(r)
    ensures Stages(ms, window, codec).Failure? ==> r == Clean(Clean(ms, codec.parse), codec.parse)
  {
    match Stages(ms, window, codec)
    case Success(out) => out
    case Failure(_) => Clean(Clean(ms, codec.parse), codec.parse)
  }

  /**
    The sanitiser is not idempotent: an assistant message whose only tool call lacks an id survives the
    first cleaning with an empty tool-call list and no content, and a second run drops it.
  */
  lemma NotIdempotent(codec: Codec)
    ensures
      var m := Message(Assistant, Some(""), None, Some([ToolCall("", "web_search", "{}")]), None);
      var once := Sanitize([m], DefaultWindow, codec);
      && once == [m.(toolCalls := Some([]))]
      && Sanitize(once, DefaultWindow, codec) == []
      && Sanitize(once, DefaultWindow, codec) != once
  {
    var m := Message(Assistant, Some(""), None, Some([ToolCall("", "web_search", "{}")]), None);
    var emptied := m.(toolCalls := Some([]));
    EmptyCallListSurvives(codec.parse);
    assert Clean([m], codec.parse) == [emptied];
    assert Deduplicate([emptied], DefaultWindow) == [emptied];
    assert ResponseMap([emptied]) == Success(map[]) by {
      assert [emptied][..0] == [];
    }
    var ctx := ContextOf([emptied], map[]);
    assert TransformOne(emptied, ctx, codec) == Success([emptied]);
    assert TransformAll([emptied], ctx, codec) == Success([emptied]) by {
      assert [emptied][1..] == [];
    }
    assert Stages([m], DefaultWindow, codec) == Success([emptied]);
    assert Clean([emptied], codec.parse) == [] by {
      assert !Survives(emptied);
      assert [emptied][1..] == [];
    }
    assert Stages([emptied], DefaultWindow, codec) == Success([]);
  }

  /** Two answered `web_search` calls in one message, both with the arguments `null`. */
  function NullArgumentsSample(): seq<Message> {
    [ Message(Assistant, None, None,
        Some([ToolCall("call_1", "web_search", "null"), ToolCall("call_2", "web_search", "null")]), None),
      Message(Tool, Some("ok"), None, None, Some("call_1")),
      Message(Tool, Some("ok"), None, None, Some("call_2")) ]
  }

  /**
    The fallback is reachable and its output can break the single-call constraint: two answered
    `web_search` calls whose arguments are JSON `null` make the summary throw, and the cleaned list keeps
    both calls in one assistant message.
  */
  lemma FallbackKeepsSeveralCalls(codec: Codec)
    requires codec.parse("null") == Some(Value(Null))
    ensures Stages(NullArgumentsSample(), DefaultWindow, codec).Failure?
    ensures Sanitize(NullArgumentsSample(), DefaultWindow, codec) == NullArgumentsSample()
    ensures !OneCallPerAssistant(Sanitize(NullArgumentsSample(), DefaultWindow, codec))
  {
    var ms := NullArgumentsSample();
    SampleSurvivesCleaning(codec);
    SampleDistinct();
    DistinctFingerprintsUnchanged(ms, DefaultWindow);
    SampleSummaryThrows(codec);
    assert Stages(ms, DefaultWindow, codec).Failure?;
    assert |Calls(ms[0])| == 2;
  }

  lemma SampleDistinct()
    ensures forall i, j | 0 <= i < j < |NullArgumentsSample()| ::
      FingerprintOf(NullArgumentsSample()[i]) != FingerprintOf(NullArgumentsSample()[j])
  {
    var ms := NullArgumentsSample();
    forall i, j | 0 <= i < j < |ms|
      ensures FingerprintOf(ms[i]) != FingerprintOf(ms[j])
    {
      if i == 0 {
        assert FingerprintOf(ms[i]).role != FingerprintOf(ms[j]).role;
      } else {
        assert FingerprintOf(ms[i]).toolCallId != FingerprintOf(ms[j]).toolCallId;
      }
    }
  }

  lemma SampleSurvivesCleaning(codec: Codec)
    requires codec.parse("null") == Some(Value(Null))
    ensures Clean(NullArgumentsSample(), codec.parse) == NullArgumentsSample()
  {
    SampleMessagesStable(codec);
    CleanIdentity(NullArgumentsSample(), codec.parse);
  }

  lemma SampleMessagesStable(codec: Codec)
    requires codec.parse("null") == Some(Value(Null))
    ensures forall i | 0 <= i < |NullArgumentsSample()| ::
      Survives(NullArgumentsSample()[i]) && CleanMessage(NullArgumentsSample()[i], codec.parse) == NullArgumentsSample()[i]
  {
    var ms := NullArgumentsSample();
    var c1 := ToolCall("call_1", "web_search", "null");
    var c2 := ToolCall("call_2", "web_search", "null");
    assert RepairArguments(c1, codec.parse) == c1;
    assert RepairArguments(c2, codec.parse) == c2;
    CleanCallsCons(c2, [], codec.parse);
    CleanCallsCons(c1, [c2], codec.parse);
    assert [c1] + [c2] == [c1, c2];
    assert ms[0].toolCalls == Some([c1, c2]);
    forall i | 0 <= i < |ms|
      ensures Survives(ms[i]) && CleanMessage(ms[i], codec.parse) == ms[i]
    {
      if i == 0 {
        assert |Calls(ms[0])| > 0;
        assert CleanCalls([c1, c2], codec.parse) == [c1, c2];
        assert CleanMessage(ms[0], codec.parse) == ms[0].(toolCalls := Some([c1, c2]));
      } else {
        assert HasContent(ms[i]) && ms[i].toolCalls.None?;
      }
    }
  }

  lemma SampleSummaryThrows(codec: Codec)
    requires codec.parse("null") == Some(Value(Null))
    ensures TransformMessages(NullArgumentsSample(), codec).Failure?
  {
    var ms := NullArgumentsSample();
    var cs := Calls(ms[0]);
    assert |cs| == 2 && cs[0].id == "call_1" && cs[1].id == "call_2";
    var responses := ResponseMap(ms);
    assert responses.Success?;
    assert responses.value["call_1"].success by {
      LaterResponseWins(ms, 1, "call_1");
      assert |AsciiLower("ok")| == 2;
      assert !Contains(AsciiLower("ok"), "error");
    }
    var ctx := ContextOf(ms, responses.value);
    assert CallLine(cs[0], cs, ctx.responses, codec).Failure?;
    assert "call_1" in ctx.completed && "call_2" in ctx.completed by {
      assert Answers(ms[1], "call_1") && Answers(ms[2], "call_2");
      assert Issues(ms[0], "call_1") && Issues(ms[0], "call_2");
    }
    var done := ctx.completed;
    assert |Pending(cs, done)| == 0 by {
      assert cs[0].id in done && cs[1].id in done;
      forall i | 0 <= i < |cs|
        ensures cs[i].id in done
      {
        assert i == 0 || i == 1;
      }
    }
    assert TransformOne(ms[0], ctx, codec).Failure?;
  }

  /** A tool response whose id no assistant message issued passes through the sanitiser unchanged. */
  lemma OrphanPassesThrough(codec: Codec)
    ensures
      var t := Message(Tool, Some("standalone result"), None, None, Some("X"));
      Sanitize([t], DefaultWindow, codec) == [t]
  {
    var t := Message(Tool, Some("standalone result"), None, None, Some("X"));
    assert CleanMessage(t, codec.parse) == t;
    assert Clean([t], codec.parse) == [t] by {
      assert Survives(t);
      assert [t][1..] == [];
    }
    assert Deduplicate([t], DefaultWindow) == [t];
    assert ResponseMap([t]).Success? by {
      assert [t][..0] == [];
    }
    var ctx := ContextOf([t], ResponseMap([t]).value);
    assert "X" in ctx.orphans by {
      assert Answers([t][0], "X");
      assert !Issues([t][0], "X");
    }
    assert TransformOne(t, ctx, codec) == Success([t]);
    assert TransformAll([t], ctx, codec) == Success([t]) by {
      assert [t][1..] == [];
    }
  }
}

=== FILE: summary.dfy ===
/**
  Summaries of completed tool calls (`generateToolSummary`, `hasSuccessfulRetry`, `areArgumentsSimilar`,
  `generateSuccessfulToolSummary`). The summary texts are the ones hard-coded in the source; the templates
  of the configuration object are never read.
*/
module Summary {
  import opened Wrappers
  import opened Text
  import opened Json
  import opened Messages
  import opened Completion

  /** The `args` a summary reads: the parsed arguments, or `{raw: arguments}` when they do not parse. */
  function ParsedArguments(call: ToolCall, parse: string -> Option<Json>): (j: Json)
    ensures parse(call.arguments).Some? ==> j == parse(call.arguments).value
    ensures parse(call.arguments).None? ==> !IsNull(j) && Lookup(j, "raw") == Some(Str(call.arguments))
    ensures parse(call.arguments).None? ==> Keys(j) == {"raw"}
  {
    match parse(call.arguments)
    case Some(j) => j
    case None => Object(map["raw" := Str(call.arguments)])
  }

  /** Unparseable `web_search` arguments have no `query`, so the line names `undefined`. */
  lemma UnparsedSearchLine(call: ToolCall, parse: string -> Option<Json>)
    requires parse(call.arguments).None?
    ensures SearchLine(ParsedArguments(call, parse)) == Success("Performed web search for: undefined")
  {
    var args := ParsedArguments(call, parse);
    assert "query" !in Keys(args);
    assert Lookup(args, "query") == None;
    var line := SearchLine(args);
    assert line.Success?;
    assert line.value == "Performed web search for: " + "undefined";
    assert "Performed web search for: " + "undefined" == "Performed web search for: undefined";
  }

  /**
    `areArgumentsSimilar`. When both texts parse to non-null values, they are similar when they have as
    many keys and every key of the first renders, through `String`, like the same key of the second (a key
    missing from the second renders as `"undefined"`). Otherwise the texts are compared with all white space
    removed.
  */
  predicate ArgumentsSimilar(a1: string, a2: string, parse: string -> Option<Json>) {
    var p1 := parse(a1);
    var p2 := parse(a2);
    if p1.Some? && p2.Some? && !IsNull(p1.value) && !IsNull(p2.value) then
      && |Keys(p1.value)| == |Keys(p2.value)|
      && forall k | k in Keys(p1.value) :: ToStr(Lookup(p1.value, k)) == ToStr(Lookup(p2.value, k))
    else
      StripWhitespace(a1) == StripWhitespace(a2)
  }

  /** Every argument text is similar to itself. */
  lemma SimilarityReflexive(a: string, parse: string -> Option<Json>)
    ensures ArgumentsSimilar(a, a, parse)
  {
  }

  /** A number and a string of the same digits count as the same argument, so a type-fix retry is similar. */
  lemma NumberSimilarToDigits(a1: string, a2: string, parse: string -> Option<Json>)
    requires parse(a1) == Some(Object(map["limit" := Str("10")]))
    requires parse(a2) == Some(Object(map["limit" := Num("10")]))
    ensures ArgumentsSimilar(a1, a2, parse) && ArgumentsSimilar(a2, a1, parse)
  {
    assert Keys(parse(a1).value) == {"limit"};
    assert Keys(parse(a2).value) == {"limit"};
  }

  /**
    Similarity is not symmetric: `{"a": "undefined"}` is similar to `{"b": "x"}` (the missing `a` renders
    as `"undefined"`), but not the other way round.
  */
  lemma SimilarityNotSymmetric(a1: string, a2: string, parse: string -> Option<Json>)
    requires parse(a1) == Some(Object(map["a" := Str("undefined")]))
    requires parse(a2) == Some(Object(map["b" := Str("x")]))
    ensures ArgumentsSimilar(a1, a2, parse) && !ArgumentsSimilar(a2, a1, parse)
  {
    var o1 := parse(a1).value;
    var o2 := parse(a2).value;
    assert Keys(o1) == {"a"} && Keys(o2) == {"b"};
    assert "b" in Keys(o2) && ToStr(Lookup(o2, "b")) != ToStr(Lookup(o1, "b"));
  }

  /** `other` is a successful retry of `failed`: another id, the same function, a successful response, and similar arguments. */
  predicate IsSuccessfulRetry(failed: ToolCall, other: ToolCall, responses: map<string, ToolResponse>, parse: string -> Option<Json>) {
    && other.id != failed.id
    && other.name == failed.name
    && other.id in responses && responses[other.id].success
    && ArgumentsSimilar(failed.arguments, other.arguments, parse)
  }

  /** `hasSuccessfulRetry`: the search is confined to the calls of the same assistant message. */
  predicate HasSuccessfulRetry(failed: ToolCall, batch: seq<ToolCall>, responses: map<string, ToolResponse>, parse: string -> Option<Json>) {
    exists k | 0 <= k < |batch| :: IsSuccessfulRetry(failed, batch[k], responses, parse)
  }

  /** The loop of `hasSuccessfulRetry`, which stops at the first successful retry it meets. */
  method FindSuccessfulRetry(failed: ToolCall, batch: seq<ToolCall>, responses: map<string, ToolResponse>, parse: string -> Option<Json>)
    returns (found: bool)
    ensures found <==> HasSuccessfulRetry(failed, batch, responses, parse)
  {
    var k := 0;
    while k < |batch|
      invariant 0 <= k <= |batch|
      invariant forall j | 0 <= j < k :: !IsSuccessfulRetry(failed, batch[j], responses, parse)
    {
      var other := batch[k];
      if other.id != failed.id && other.name == failed.name {
        if other.id in responses && responses[other.id].success {
          if ArgumentsSimilar(failed.arguments, other.arguments, parse) {
            return true;
          }
        }
      }
      k := k + 1;
    }
    return false;
  }

  /** A call alone in its message has no retry to be superseded by. */
  lemma LoneCallHasNoRetry(c: ToolCall, responses: map<string, ToolResponse>, parse: string -> Option<Json>)
    ensures !HasSuccessfulRetry(c, [c], responses, parse)
  {
  }

  /** The functions with a dedicated summary text; for these a `null` argument object throws. */
  predicate Templated(name: string) {
    name == "execute_cql_search" || name == "get_page_content" || name == "web_search"
  }

  /** A summary line begins with a visible character, so no joined summary of lines is blank. */
  predicate VisiblyStarts(line: string) {
    |line| > 0 && !IsWhitespace(line[0])
  }

  /** `results.results?.length || 0`, throwing on a `null` search result. */
  function ResultCount(results: Json): (r: Result<nat, TypeError>)
    ensures r.Failure? <==> IsNull(results)
    ensures r.Success? && Lookup(results, "results").Some? && Lookup(results, "results").value.Str? ==>
      r.value == |Lookup(results, "results").value.s|
    ensures r.Success? && Lookup(results, "results").Some? && Lookup(results, "results").value.Nested? ==>
      r.value == (if Lookup(results, "results").value.length.Some? then Lookup(results, "results").value.length.value else 0)
    ensures r.Success? && (Lookup(results, "results").None? || !(Lookup(results, "results").value.Str? || Lookup(results, "results").value.Nested?)) ==>
      r.value == 0
  {
    var field :- Property(results, "results");
    match field
    case Some(Str(s)) => Success(|s|)
    case Some(Nested(Some(n), _)) => Success(n)
    case _ => Success(0)
  }

  /** A line made of a fixed opening (whose first letter is `lead`) followed by the rest. */
  function Phrase(opening: string, lead: char, rest: string): (r: string)
    requires |opening| > 0 && opening[0] == lead
    ensures |r| > 0 && r[0] == lead && StartsWith(r, opening)
  {
    opening + rest
  }

  lemma StartsWithHead(s: string, prefix: string)
    requires |prefix| > 0 && StartsWith(s, prefix)
    ensures s[0] == prefix[0]
  {
    assert s[..|prefix|][0] == s[0];
  }

  /** `generateSuccessfulToolSummary`, with its `TypeError` when a templated function's arguments are `null`. */
  function SuccessLine(name: string, args: Json, content: string, codec: Codec): (r: Result<string, TypeError>)
    ensures r.Failure? <==> Templated(name) && IsNull(args)
    ensures r.Success? ==> |r.value| > 0 && (r.value[0] == 'S' || r.value[0] == 'R' || r.value[0] == 'P')
    ensures !Templated(name) ==> r == Success("Successfully executed " + name + " with " + codec.stringify(args))
    ensures name == "web_search" && r.Success? ==> r.value == "Performed web search for: " + ToStr(Lookup(args, "query"))
    ensures name == "get_page_content" && r.Success? ==>
      r.value == "Retrieved content from page: "
        + (if Truthy(Lookup(args, "url")) then ToStr(Lookup(args, "url")) else ToStr(Lookup(args, "page_id")))
    ensures name == "execute_cql_search" && r.Success? ==>
      var target := "\"" + ToStr(Lookup(args, "cql")) + "\"";
      var results := codec.parse(content);
      r.value ==
        if results.Some? && !IsNull(results.value)
        then "Searched Confluence for " + target + " and found " + NatToString(ResultCount(results.value).value) + " result(s)"
        else "Successfully executed Confluence search for " + target
  {
    if name == "execute_cql_search" then CqlLine(args, content, codec)
    else if name == "get_page_content" then PageLine(args)
    else if name == "web_search" then SearchLine(args)
    else
      var line := "Successfully executed " + name + " with " + codec.stringify(args);
      assert line == Phrase("Successfully executed ", 'S', name + " with " + codec.stringify(args));
      Success(line)
  }

  /** The `execute_cql_search` line: the search count when the response parses, the plain line otherwise. */
  function CqlLine(args: Json, content: string, codec: Codec): (r: Result<string, TypeError>)
    ensures r.Failure? <==> IsNull(args)
    ensures r.Success? ==> |r.value| > 0 && r.value[0] == 'S'
    ensures r.Success? ==>
      var target := "\"" + ToStr(Lookup(args, "cql")) + "\"";
      var results := codec.parse(content);
      r.value ==
        if results.Some? && !IsNull(results.value)
        then "Searched Confluence for " + target + " and found " + NatToString(ResultCount(results.value).value) + " result(s)"
        else "Successfully executed Confluence search for " + target
  {
    var cql :- Property(args, "cql");
    var target := "\"" + ToStr(cql) + "\"";
    var fallback := Phrase("Successfully executed Confluence search for ", 'S', target);
    match codec.parse(content)
    case Some(results) =>
      (match ResultCount(results)
       case Success(count) =>
         var line := "Searched Confluence for " + target + " and found " + NatToString(count) + " result(s)";
         assert line == Phrase("Searched Confluence for ", 'S', target + " and found " + NatToString(count) + " result(s)");
         Success(line)
       case Failure(_) => Success(fallback))
    case None => Success(fallback)
  }

  /** The `get_page_content` line: the page's url, or its id when the url is falsy. */
  function PageLine(args: Json): (r: Result<string, TypeError>)
    ensures r.Failure? <==> IsNull(args)
    ensures r.Success? ==> |r.value| > 0 && r.value[0] == 'R'
    ensures r.Success? ==>
      r.value == "Retrieved content from page: "
        + (if Truthy(Lookup(args, "url")) then ToStr(Lookup(args, "url")) else ToStr(Lookup(args, "page_id")))
  {
    var url :- Property(args, "url");
    // `args.url` was read, so `args` is not null and reading `page_id` cannot throw
    var target := if Truthy(url) then ToStr(url) else ToStr(Lookup(args, "page_id"));
    Success(Phrase("Retrieved content from page: ", 'R', target))
  }

  /** The `web_search` line: the query. */
  function SearchLine(args: Json): (r: Result<string, TypeError>)
    ensures r.Failure? <==> IsNull(args)
    ensures r.Success? ==> |r.value| > 0 && r.value[0] == 'P'
    ensures r.Success? ==> r.value == "Performed web search for: " + ToStr(Lookup(args, "query"))
  {
    var query :- Property(args, "query");
    Success(Phrase("Performed web search for: ", 'P', ToStr(query)))
  }

  /** A search whose response lists two results is reported with its query text and the count. */
  lemma CqlCountSample(content: string, codec: Codec)
    requires codec.parse(content) == Some(Object(map["results" := Nested(Some(2), "a,b")]))
    ensures SuccessLine("execute_cql_search", Object(map["cql" := Str("x")]), content, codec)
      == Success("Searched Confluence for \"x\" and found 2 result(s)")
  {
    var args := Object(map["cql" := Str("x")]);
    var results := Object(map["results" := Nested(Some(2), "a,b")]);
    assert Lookup(args, "cql") == Some(Str("x"));
    assert Lookup(results, "results") == Some(Nested(Some(2), "a,b"));
    assert ResultCount(results) == Success(2);
    assert NatToString(2) == "2";
    var target := "\"" + ToStr(Lookup(args, "cql")) + "\"";
    assert target == "\"x\"";
    var head := "Searched Confluence for " + target;
    assert head == "Searched Confluence for \"x\"";
    var counted := head + " and found " + "2";
    assert counted == "Searched Confluence for \"x\" and found 2";
    assert counted + " result(s)" == "Searched Confluence for \"x\" and found 2 result(s)";
  }

  /** A page without a url is reported by its id. */
  lemma PageIdSample()
    ensures PageLine(Object(map["url" := Str(""), "page_id" := Num("42")])) == Success("Retrieved content from page: 42")
  {
    var args := Object(map["url" := Str(""), "page_id" := Num("42")]);
    assert Lookup(args, "url") == Some(Str(""));
    assert Lookup(args, "page_id") == Some(Num("42"));
    assert "Retrieved content from page: " + "42" == "Retrieved content from page: 42";
  }

  /**
    The summary line of one call in a completed batch; `None` when the line is suppressed.
    An unanswered call is reported as initiated; a failed call is suppressed exactly when the batch holds a
    successful retry of it, and otherwise reported with its response; a successful call gets its success line.
  */
  function CallLine(call: ToolCall, batch: seq<ToolCall>, responses: map<string, ToolResponse>, codec: Codec)
    : (r: Result<Option<string>, TypeError>)
    ensures r.Failure? <==>
      call.id in responses && responses[call.id].success && Templated(call.name)
      && IsNull(ParsedArguments(call, codec.parse))
    ensures r == Success(None) <==>
      call.id in responses && !responses[call.id].success && HasSuccessfulRetry(call, batch, responses, codec.parse)
    ensures call.id in responses && !responses[call.id].success && !HasSuccessfulRetry(call, batch, responses, codec.parse) ==>
      r == Success(Some("Failed to execute " + call.name + ": " + responses[call.id].content))
    ensures r.Success? && r.value.Some? ==>
      VisiblyStarts(r.value.value) && (StartsWith(r.value.value, "Initiated ") <==> call.id !in responses)
    ensures call.id !in responses ==>
      r == Success(Some("Initiated " + call.name + " with " + codec.stringify(ParsedArguments(call, codec.parse))))
    ensures call.id in responses && responses[call.id].success && r.Success? ==>
      var line := SuccessLine(call.name, ParsedArguments(call, codec.parse), responses[call.id].content, codec);
      line.Success? && r.value == Some(line.value)
  {
    var args := ParsedArguments(call, codec.parse);
    if call.id !in responses then
      var line := "Initiated " + call.name + " with " + codec.stringify(args);
      assert line == Phrase("Initiated ", 'I', call.name + " with " + codec.stringify(args));
      Success(Some(line))
    else
      var response := responses[call.id];
      if !response.success then
        if HasSuccessfulRetry(call, batch, responses, codec.parse) then Success(None)
        else Success(Some(FailedLine(call.name, response.content)))
      else
        var line :- SuccessLine(call.name, args, response.content, codec);
        NotInitiated(line);
        Success(Some(line))
  }

  /** The line of a failed call without a successful retry. */
  function FailedLine(name: string, content: string): (r: string)
    ensures VisiblyStarts(r) && !StartsWith(r, "Initiated ")
  {
    var line := "Failed to execute " + name + ": " + content;
    assert line == Phrase("Failed to execute ", 'F', name + ": " + content);
    NotInitiated(line);
    line
  }

  /** A line that does not open with `I` does not open with `Initiated `. */
  lemma NotInitiated(line: string)
    requires |line| > 0 && line[0] != 'I'
    ensures !StartsWith(line, "Initiated ")
  {
    if StartsWith(line, "Initiated ") {
      StartsWithHead(line, "Initiated ");
    }
  }

  /** The outcome of each call's line, in call order (the `map` of the source). */
  function Outcomes(calls: seq<ToolCall>, batch: seq<ToolCall>, responses: map<string, ToolResponse>, codec: Codec)
    : (o: seq<Result<Option<string>, TypeError>>)
    ensures |o| == |calls| && forall k | 0 <= k < |calls| :: o[k] == CallLine(calls[k], batch, responses, codec)
  {
    seq(|calls|, k requires 0 <= k < |calls| => CallLine(calls[k], batch, responses, codec))
  }

  /** A line as the filter leaves it: a suppressed line contributes nothing. */
  function Present(line: Option<string>): seq<string> {
    if line.Some? then [line.value] else []
  }

  /**
    The kept lines of `outcomes`, in order (the `filter` of the source). The first failing outcome is the
    exception that escapes, as the template of an earlier call throws before a later one is formatted.
  */
  function Gather(outcomes: seq<Result<Option<string>, TypeError>>): (r: Result<seq<string>, TypeError>)
    ensures r.Success? <==> forall k | 0 <= k < |outcomes| :: outcomes[k].Success?
    ensures r.Success? ==> |r.value| <= |outcomes|
  {
    if |outcomes| == 0 then Success([])
    else if outcomes[0].Failure? then Failure(outcomes[0].error)
    else
      var rest := Gather(outcomes[1..]);
      assert forall k | 0 < k < |outcomes| :: outcomes[k] == outcomes[1..][k - 1];
      if rest.Failure? then Failure(rest.error) else Success(Present(outcomes[0].value) + rest.value)
  }

  /** Gathering consecutive outcomes gathers each part and puts the first part's lines first. */
  lemma {:induction false} GatherAppend(x: seq<Result<Option<string>, TypeError>>, y: seq<Result<Option<string>, TypeError>>)
    ensures Gather(x + y).Success? <==> Gather(x).Success? && Gather(y).Success?
    ensures Gather(x + y).Success? ==> Gather(x + y).value == Gather(x).value + Gather(y).value
  {
    if |x| == 0 {
      assert x + y == y;
    } else {
      GatherAppend(x[1..], y);
      assert (x + y)[0] == x[0] && (x + y)[1..] == x[1..] + y;
      if Gather(x + y).Success? {
        calc {
          Gather(x + y).value;
        ==
          Present(x[0].value) + Gather(x[1..] + y).value;
        ==
          Present(x[0].value) + (Gather(x[1..]).value + Gather(y).value);
        ==
          (Present(x[0].value) + Gather(x[1..]).value) + Gather(y).value;
        }
      }
    }
  }

  /** A property every kept line has is a property of every gathered line. */
  lemma {:induction false} GatherAll(outcomes: seq<Result<Option<string>, TypeError>>, p: string -> bool)
    requires forall k | 0 <= k < |outcomes| :: outcomes[k].Success? && outcomes[k].value.Some? ==> p(outcomes[k].value.value)
    ensures Gather(outcomes).Success? ==> forall i | 0 <= i < |Gather(outcomes).value| :: p(Gather(outcomes).value[i])
  {
    if |outcomes| > 0 && Gather(outcomes).Success? {
      assert forall k | 0 <= k < |outcomes| - 1 :: outcomes[1..][k] == outcomes[k + 1];
      GatherAll(outcomes[1..], p);
    }
  }

  /** A kept line anywhere makes the gathered list non-empty. */
  lemma {:induction false} GatherNonEmpty(outcomes: seq<Result<Option<string>, TypeError>>, k: int)
    requires 0 <= k < |outcomes|
    requires Gather(outcomes).Success? && outcomes[k].value.Some?
    ensures |Gather(outcomes).value| > 0
  {
    if k > 0 && outcomes[0].value.None? {
      assert outcomes[1..][k - 1] == outcomes[k];
      GatherNonEmpty(outcomes[1..], k - 1);
    }
  }

  /** The lines of `calls`, in order, with the suppressed ones left out (the `map` then `filter` of the source). */
  function Lines(calls: seq<ToolCall>, batch: seq<ToolCall>, responses: map<string, ToolResponse>, codec: Codec)
    : (r: Result<seq<string>, TypeError>)
    ensures r.Success? <==> forall k | 0 <= k < |calls| :: CallLine(calls[k], batch, responses, codec).Success?
    ensures r.Success? ==> |r.value| <= |calls| && forall i | 0 <= i < |r.value| :: VisiblyStarts(r.value[i])
  {
    var outcomes := Outcomes(calls, batch, responses, codec);
    GatherAll(outcomes, VisiblyStarts);
    Gather(outcomes)
  }

  /** A call whose line is kept leaves the line list non-empty. */
  lemma LinesNonEmpty(calls: seq<ToolCall>, k: int, batch: seq<ToolCall>, responses: map<string, ToolResponse>, codec: Codec)
    requires 0 <= k < |calls|
    requires Lines(calls, batch, responses, codec).Success?
    requires CallLine(calls[k], batch, responses, codec).value.Some?
    ensures |Lines(calls, batch, responses, codec).value| > 0
  {
    GatherNonEmpty(Outcomes(calls, batch, responses, codec), k);
  }

  /** The line list of a single call: its line when it has one, nothing when it is suppressed. */
  lemma LinesSingle(c: ToolCall, batch: seq<ToolCall>, responses: map<string, ToolResponse>, codec: Codec)
    ensures Lines([c], batch, responses, codec).Success? <==> CallLine(c, batch, responses, codec).Success?
    ensures Lines([c], batch, responses, codec).Success? ==>
      Lines([c], batch, responses, codec).value == Present(CallLine(c, batch, responses, codec).value)
  {
    var o := Outcomes([c], batch, responses, codec);
    assert o == [CallLine(c, batch, responses, codec)];
    assert o[1..] == [];
  }

  /** The lines of consecutive calls are the lines of the first calls followed by those of the rest, in call order. */
  lemma LinesAppend(a: seq<ToolCall>, b: seq<ToolCall>, batch: seq<ToolCall>, responses: map<string, ToolResponse>, codec: Codec)
    ensures Lines(a + b, batch, responses, codec).Success? <==>
      Lines(a, batch, responses, codec).Success? && Lines(b, batch, responses, codec).Success?
    ensures Lines(a + b, batch, responses, codec).Success? ==>
      Lines(a + b, batch, responses, codec).value
        == Lines(a, batch, responses, codec).value + Lines(b, batch, responses, codec).value
  {
    OutcomesAppend(a, b, batch, responses, codec);
    GatherAppend(Outcomes(a, batch, responses, codec), Outcomes(b, batch, responses, codec));
  }

  /** The lines of consecutive calls are the lines of each part, in order (the `map` of the source). */
  lemma OutcomesAppend(a: seq<ToolCall>, b: seq<ToolCall>, batch: seq<ToolCall>, responses: map<string, ToolResponse>, codec: Codec)
    ensures Outcomes(a + b, batch, responses, codec) == Outcomes(a, batch, responses, codec) + Outcomes(b, batch, responses, codec)
  {
    var o, oa, ob := Outcomes(a + b, batch, responses, codec), Outcomes(a, batch, responses, codec), Outcomes(b, batch, responses, codec);
    forall k | 0 <= k < |o|
      ensures o[k] == (oa + ob)[k]
    {
      if k < |a| {
        assert (a + b)[k] == a[k];
      } else {
        assert (a + b)[k] == b[k - |a|];
      }
    }
  }

  /** `generateToolSummary`: the lines of the batch joined with newlines. */
  function Summarize(batch: seq<ToolCall>, responses: map<string, ToolResponse>, codec: Codec): (r: Result<string, TypeError>)
    ensures r.Success? <==> forall k | 0 <= k < |batch| :: CallLine(batch[k], batch, responses, codec).Success?
  {
    var lines :- Lines(batch, batch, responses, codec);
    Success(Join("\n", lines))
  }

  /**
    Retries are looked for only inside the batch: a failed call alone in its message is reported as failed,
    whatever later messages retry it.
  */
  lemma LoneFailureReported(c: ToolCall, responses: map<string, ToolResponse>, codec: Codec)
    requires c.id in responses && !responses[c.id].success
    ensures Summarize([c], responses, codec) == Success("Failed to execute " + c.name + ": " + responses[c.id].content)
  {
    LoneCallHasNoRetry(c, responses, codec.parse);
    var line := "Failed to execute " + c.name + ": " + responses[c.id].content;
    assert CallLine(c, [c], responses, codec) == Success(Some(line));
    LinesSingle(c, [c], responses, codec);
  }

  /**
    When every call of a non-empty batch has a recorded response, some line survives: a suppressed failure
    needs a successful sibling, whose own line is kept. The joined summary is therefore never blank and the
    message is never dropped.
  */
  lemma {:induction false} SummaryNeverBlank(batch: seq<ToolCall>, responses: map<string, ToolResponse>, codec: Codec)
    requires |batch| > 0
    requires forall k | 0 <= k < |batch| :: batch[k].id in responses
    requires Summarize(batch, responses, codec).Success?
    ensures !IsBlank(Summarize(batch, responses, codec).value)
  {
    var lines := Lines(batch, batch, responses, codec).value;
    var k: int;
    if exists j | 0 <= j < |batch| :: responses[batch[j].id].success {
      k :| 0 <= k < |batch| && responses[batch[k].id].success;
    } else {
      k := 0;
      assert !HasSuccessfulRetry(batch[0], batch, responses, codec.parse);
    }
    assert CallLine(batch[k], batch, responses, codec).value.Some?;
    LinesNonEmpty(batch, k, batch, responses, codec);
    var summary := Join("\n", lines);
    assert summary[..|lines[0]|] == lines[0];
    assert !IsWhitespace(summary[0]);
  }

  /** When every call of the batch has a recorded response, no line of the summary reports an initiated call. */
  lemma NoInitiatedLine(calls: seq<ToolCall>, batch: seq<ToolCall>, responses: map<string, ToolResponse>, codec: Codec)
    requires forall k | 0 <= k < |calls| :: calls[k].id in responses
    requires Lines(calls, batch, responses, codec).Success?
    ensures forall l | l in Lines(calls, batch, responses, codec).value :: !StartsWith(l, "Initiated ")
  {
    GatherAll(Outcomes(calls, batch, responses, codec), l => !StartsWith(l, "Initiated "));
  }
}

=== FILE: text.dfy ===
/** The JavaScript string operations the sanitiser and the stream decoder rely on. */
module Text {

  /** The characters matched by JavaScript's `\s` and removed by `String.prototype.trim`. */
  predicate IsWhitespace(c: char) {
    || c == '\t' || c == '\n' || c == '\U{000B}' || c == '\U{000C}' || c == '\r' || c == ' '
    || c == '\U{00A0}' || c == '\U{1680}' || ('\U{2000}' <= c <= '\U{200A}')
    || c == '\U{2028}' || c == '\U{2029}' || c == '\U{202F}' || c == '\U{205F}'
    || c == '\U{3000}' || c == '\U{FEFF}'
  }

  /** `s.trim() === ""`. */
  predicate IsBlank(s: string) {
    |s| == 0 || (IsWhitespace(s[0]) && IsBlank(s[1..]))
  }

  /** `s.replace(/\s/g, "")`: the non-white-space characters of `s`, in order. */
  function StripWhitespace(s: string): (r: string)
    ensures |r| <= |s|
    ensures forall i | 0 <= i < |r| :: !IsWhitespace(r[i])
  {
    if |s| == 0 then ""
    else (if IsWhitespace(s[0]) then "" else [s[0]]) + StripWhitespace(s[1..])
  }

  /** Stripping works character by character, so the kept characters keep their order and their number. */
  lemma {:induction false} StripWhitespaceAppend(a: string, b: string)
    ensures StripWhitespace(a + b) == StripWhitespace(a) + StripWhitespace(b)
    ensures |a| == 1 ==> StripWhitespace(a) == if IsWhitespace(a[0]) then "" else a
  {
    if |a| > 0 {
      StripWhitespaceAppend(a[1..], b);
      var h := if IsWhitespace(a[0]) then "" else [a[0]];
      calc {
        StripWhitespace(a + b);
      == { assert (a + b)[0] == a[0]; assert (a + b)[1..] == a[1..] + b; }
        h + StripWhitespace(a[1..] + b);
      ==
        h + (StripWhitespace(a[1..]) + StripWhitespace(b));
      ==
        (h + StripWhitespace(a[1..])) + StripWhitespace(b);
      }
      if |a| == 1 {
        assert a[1..] == "";
      }
    } else {
      assert a + b == b;
    }
  }

  /** Every character that is not white space is kept. */
  lemma {:induction false} StripWhitespaceKeeps(s: string)
    ensures forall c | c in s && !IsWhitespace(c) :: c in StripWhitespace(s)
  {
    if |s| > 0 {
      StripWhitespaceKeeps(s[1..]);
      assert forall c | c in s :: c == s[0] || c in s[1..];
    }
  }

  function LowerChar(c: char): char {
    if 'A' <= c <= 'Z' then (c as int + 32) as char else c
  }

  /** Lower-cases the ASCII letters of `s`. */
  function AsciiLower(s: string): (r: string)
    ensures |r| == |s|
  {
    seq(|s|, i requires 0 <= i < |s| => LowerChar(s[i]))
  }

  /** `s.includes(sub)`. */
  predicate Contains(s: string, sub: string) {
    exists i | 0 <= i <= |s| - |sub| :: OccursAt(s, sub, i)
  }

  predicate OccursAt(s: string, sub: string, i: int) {
    0 <= i <= |s| - |sub| && s[i..i + |sub|] == sub
  }

  /** `s.startsWith(prefix)`. */
  predicate StartsWith(s: string, prefix: string) {
    |prefix| <= |s| && s[..|prefix|] == prefix
  }

  /** `parts.join(sep)`. */
  function Join(sep: string, parts: seq<string>): (r: string)
    ensures |parts| > 0 ==> StartsWith(r, parts[0])
    ensures |parts| == 0 ==> r == ""
  {
    if |parts| == 0 then ""
    else if |parts| == 1 then parts[0]
    else parts[0] + sep + Join(sep, parts[1..])
  }

  /** `s.split(sep)` for a one-character separator: the maximal separator-free pieces, always at least one. */
  function Split(s: string, sep: char): (r: seq<string>)
    ensures |r| >= 1
  {
    if |s| == 0 then [""]
    else
      var rest := Split(s[1..], sep);
      if s[0] == sep then [""] + rest
      else [[s[0]] + rest[0]] + rest[1..]
  }

  /** No piece of a split holds the separator, and a text without the separator is its own only piece. */
  lemma {:induction false} SplitPieces(s: string, sep: char)
    ensures forall i | 0 <= i < |Split(s, sep)| :: sep !in Split(s, sep)[i]
    ensures sep !in s ==> Split(s, sep) == [s]
  {
    if |s| > 0 {
      SplitPieces(s[1..], sep);
      var rest := Split(s[1..], sep);
      assert s == [s[0]] + s[1..];
      if s[0] != sep {
        assert sep !in [s[0]] + rest[0];
        assert forall i | 1 <= i < |Split(s, sep)| :: Split(s, sep)[i] == rest[i];
      } else {
        assert forall i | 1 <= i < |Split(s, sep)| :: Split(s, sep)[i] == rest[i - 1];
      }
    }
  }

  lemma JoinCons(sep: string, x: string, ys: seq<string>)
    requires |ys| >= 1
    ensures Join(sep, [x] + ys) == x + sep + Join(sep, ys)
  {
    assert ([x] + ys)[1..] == ys;
  }

  /** Splitting and re-joining with the same separator gives the text back. */
  lemma {:induction false} SplitJoin(s: string, sep: char)
    ensures Join([sep], Split(s, sep)) == s
  {
    if |s| > 0 {
      var rest := Split(s[1..], sep);
      SplitJoin(s[1..], sep);
      if s[0] == sep {
        JoinCons([sep], "", rest);
        assert s == [sep] + s[1..];
      } else if |rest| == 1 {
        assert s == [s[0]] + s[1..];
      } else {
        JoinCons([sep], rest[0], rest[1..]);
        assert rest == [rest[0]] + rest[1..];
        JoinCons([sep], [s[0]] + rest[0], rest[1..]);
        assert s == [s[0]] + s[1..];
      }
    }
  }

  /** Joining separator-free pieces and splitting again gives the pieces back. */
  lemma {:induction false} JoinSplit(parts: seq<string>, sep: char)
    requires |parts| >= 1
    requires forall i | 0 <= i < |parts| :: sep !in parts[i]
    ensures Split(Join([sep], parts), sep) == parts
  {
    if |parts| > 1 {
      JoinSplit(parts[1..], sep);
      JoinCons([sep], parts[0], parts[1..]);
      assert parts == [parts[0]] + parts[1..];
      SplitAfterPiece(parts[0], sep, Join([sep], parts[1..]));
    } else {
      SplitPieces(parts[0], sep);
    }
  }

  lemma {:induction false} SplitAfterPiece(p: string, sep: char, t: string)
    requires sep !in p
    ensures Split(p + [sep] + t, sep) == [p] + Split(t, sep)
  {
    if |p| > 0 {
      SplitAfterPiece(p[1..], sep, t);
      assert (p + [sep] + t)[1..] == p[1..] + [sep] + t;
      assert [p[0]] + p[1..] == p;
    } else {
      assert (p + [sep] + t)[1..] == t;
    }
  }

  lemma SplitStep(s: string, sep: char)
    requires |s| > 0
    ensures s[0] == sep ==> Split(s, sep) == [""] + Split(s[1..], sep)
    ensures s[0] != sep ==> Split(s, sep) == [[s[0]] + Split(s[1..], sep)[0]] + Split(s[1..], sep)[1..]
  {
  }

  /** A separator splits the text into the pieces of what precedes it followed by the pieces of what follows it. */
  lemma {:induction false} SplitAppend(a: string, sep: char, b: string)
    ensures Split(a + [sep] + b, sep) == Split(a, sep) + Split(b, sep)
  {
    var whole := a + [sep] + b;
    SplitStep(whole, sep);
    if |a| == 0 {
      assert whole[1..] == b;
    } else {
      assert whole[1..] == a[1..] + [sep] + b;
      SplitAppend(a[1..], sep, b);
      SplitAppendStep(a, sep, b);
    }
  }

  lemma SplitAppendStep(a: string, sep: char, b: string)
    requires |a| > 0
    requires Split(a[1..] + [sep] + b, sep) == Split(a[1..], sep) + Split(b, sep)
    ensures Split(a + [sep] + b, sep) == Split(a, sep) + Split(b, sep)
  {
    var whole := a + [sep] + b;
    var ra, rb := Split(a[1..], sep), Split(b, sep);
    assert whole[0] == a[0];
    assert whole[1..] == a[1..] + [sep] + b;
    if a[0] == sep {
      calc {
        Split(whole, sep);
      == { SplitStep(whole, sep); }
        [""] + Split(whole[1..], sep);
      ==
        [""] + (ra + rb);
      ==
        ([""] + ra) + rb;
      == { SplitStep(a, sep); }
        Split(a, sep) + rb;
      }
    } else {
      calc {
        Split(whole, sep);
      == { SplitStep(whole, sep); }
        [[a[0]] + Split(whole[1..], sep)[0]] + Split(whole[1..], sep)[1..];
      ==
        [[a[0]] + (ra + rb)[0]] + (ra + rb)[1..];
      == { PieceAppend(a[0], ra, rb); }
        ([[a[0]] + ra[0]] + ra[1..]) + rb;
      == { SplitStep(a, sep); }
        Split(a, sep) + rb;
      }
    }
  }

  /** Gluing a character to the first piece commutes with appending further pieces. */
  lemma PieceAppend(c: char, ra: seq<string>, rb: seq<string>)
    requires |ra| >= 1
    ensures [[c] + (ra + rb)[0]] + (ra + rb)[1..] == ([[c] + ra[0]] + ra[1..]) + rb
  {
    assert (ra + rb)[0] == ra[0];
    assert (ra + rb)[1..] == ra[1..] + rb;
  }


  function DigitChar(d: nat): (c: char)
    requires d < 10
    ensures '0' <= c <= '9'
  {
    (('0' as int) + d) as char
  }

  /** The decimal rendering of `n` (JavaScript's `String(n)` for a non-negative integer). */
  function NatToString(n: nat): (r: string)
    ensures |r| >= 1
    ensures forall i | 0 <= i < |r| :: '0' <= r[i] <= '9'
    ensures DigitsValue(r) == n
  {
    if n < 10 then [DigitChar(n)]
    else
      var prefix := NatToString(n / 10);
      assert (prefix + [DigitChar(n % 10)])[..|prefix|] == prefix;
      prefix + [DigitChar(n % 10)]
  }

  /** The number a string of decimal digits denotes. */
  function DigitsValue(s: string): nat
    requires forall i | 0 <= i < |s| :: '0' <= s[i] <= '9'
  {
    if |s| == 0 then 0
    else 10 * DigitsValue(s[..|s| - 1]) + (s[|s| - 1] as int - '0' as int)
  }
}

=== FILE: transform.dfy ===
/**
  The transformation pass (`transformMessages`): completed tool-call batches become summary messages, a
  batch with pending calls keeps only its last pending call, and tool responses are kept only when orphaned.
*/
module Transform {
  import opened Wrappers
  import opened Text
  import opened Json
  import opened Messages
  import opened Completion
  import opened Summary

  /** What the transformation consults: the completed ids, the orphaned ids and the response map. */
  datatype Context = Context(completed: set<string>, orphans: set<string>, responses: map<string, ToolResponse>)

  /** `c` is the last call of `cs` whose id is not completed. */
  predicate IsLastPending(cs: seq<ToolCall>, completed: set<string>, c: ToolCall) {
    exists i | 0 <= i < |cs| :: cs[i] == c && c.id !in completed && forall j | i < j < |cs| :: cs[j].id in completed
  }

  /** The calls of a batch that are not completed, in order. */
  function Pending(cs: seq<ToolCall>, completed: set<string>): (r: seq<ToolCall>)
    ensures |r| <= |cs|
    ensures |r| == 0 <==> forall i | 0 <= i < |cs| :: cs[i].id in completed
  {
    if |cs| == 0 then []
    else
      var prefix := cs[..|cs| - 1];
      var last := cs[|cs| - 1];
      var earlier := Pending(prefix, completed);
      assert forall i | 0 <= i < |prefix| :: prefix[i] == cs[i];
      if last.id !in completed then earlier + [last] else earlier
  }

  /** The pending calls are exactly the calls of the batch whose ids are not completed. */
  lemma {:induction false} PendingMembers(cs: seq<ToolCall>, completed: set<string>)
    ensures forall c :: c in Pending(cs, completed) <==> c in cs && c.id !in completed
  {
    if |cs| > 0 {
      var prefix := cs[..|cs| - 1];
      PendingMembers(prefix, completed);
      assert cs == prefix + [cs[|cs| - 1]];
    }
  }

  /** The call the transformation keeps, the last of the pending ones, is the last pending call of the batch. */
  lemma {:induction false} PendingEndsWithLastPending(cs: seq<ToolCall>, completed: set<string>)
    requires |Pending(cs, completed)| > 0
    ensures IsLastPending(cs, completed, Pending(cs, completed)[|Pending(cs, completed)| - 1])
  {
    var prefix := cs[..|cs| - 1];
    var last := cs[|cs| - 1];
    var earlier := Pending(prefix, completed);
    if last.id !in completed {
      assert Pending(cs, completed) == earlier + [last];
      assert cs[|cs| - 1] == last;
    } else {
      assert Pending(cs, completed) == earlier;
      PendingEndsWithLastPending(prefix, completed);
      var c := earlier[|earlier| - 1];
      var i :| 0 <= i < |prefix| && prefix[i] == c && c.id !in completed
        && forall j | i < j < |prefix| :: prefix[j].id in completed;
      assert cs[i] == c;
      assert forall j | i < j < |cs| :: cs[j].id in completed by {
        forall j | i < j < |cs|
          ensures cs[j].id in completed
        {
          if j < |prefix| {
            assert cs[j] == prefix[j];
          }
        }
      }
    }
  }

  /** The message that replaces a completed batch. */
  function SummaryMessage(summary: string, m: Message): Message {
    Message(Assistant, Some(summary), m.name, None, None)
  }

  /** The output of one input message: nothing, or one message. */
  function TransformOne(m: Message, ctx: Context, codec: Codec): (r: Result<seq<Message>, TypeError>)
    ensures r.Success? ==> |r.value| <= 1 && OneCallPerAssistant(r.value)
    ensures !HasCallBatch(m) && m.role != Tool ==> r == Success([m])
    ensures m.role == Tool ==>
      r.Success? && (if m.toolCallId.Some? && m.toolCallId.value in ctx.orphans then r.value == [m] else r.value == [])
    ensures HasCallBatch(m) && |Pending(Calls(m), ctx.completed)| > 0 ==>
      exists c :: IsLastPending(Calls(m), ctx.completed, c) && r == Success([m.(toolCalls := Some([c]))])
    ensures HasCallBatch(m) && |Pending(Calls(m), ctx.completed)| == 0 ==>
      && (r.Success? <==> Summarize(Calls(m), ctx.responses, codec).Success?)
      && (r.Success? ==> forall x | x in r.value :: exists s :: !IsBlank(s) && x == SummaryMessage(s, m))
  {
    if HasCallBatch(m) then
      var pending := Pending(m.toolCalls.value, ctx.completed);
      if |pending| == 0 then
        var summary :- Summarize(m.toolCalls.value, ctx.responses, codec);
        if IsBlank(summary) then Success([]) else Success([SummaryMessage(summary, m)])
      else
        PendingEndsWithLastPending(m.toolCalls.value, ctx.completed);
        Success([m.(toolCalls := Some([pending[|pending| - 1]]))])
    else if m.role == Tool then
      if m.toolCallId.Some? && m.toolCallId.value in ctx.orphans then Success([m]) else Success([])
    else
      Success([m])
  }

  /** The output of each input message, in input order. */
  function Outputs(ms: seq<Message>, ctx: Context, codec: Codec): (o: seq<Result<seq<Message>, TypeError>>)
    ensures |o| == |ms| && forall i | 0 <= i < |ms| :: o[i] == TransformOne(ms[i], ctx, codec)
  {
    seq(|ms|, i requires 0 <= i < |ms| => TransformOne(ms[i], ctx, codec))
  }

  /** The outputs one after the other; the first throwing message is the exception that escapes the loop. */
  function Flatten(outs: seq<Result<seq<Message>, TypeError>>): (r: Result<seq<Message>, TypeError>)
    ensures r.Success? <==> forall i | 0 <= i < |outs| :: outs[i].Success?
  {
    if |outs| == 0 then Success([])
    else if outs[0].Failure? then Failure(outs[0].error)
    else
      var rest := Flatten(outs[1..]);
      assert forall i | 0 < i < |outs| :: outs[i] == outs[1..][i - 1];
      if rest.Failure? then Failure(rest.error) else Success(outs[0].value + rest.value)
  }

  /** Flattening consecutive outputs flattens each and keeps the first part's messages first. */
  lemma {:induction false} FlattenAppend(x: seq<Result<seq<Message>, TypeError>>, y: seq<Result<seq<Message>, TypeError>>)
    ensures Flatten(x + y).Success? <==> Flatten(x).Success? && Flatten(y).Success?
    ensures Flatten(x + y).Success? ==> Flatten(x + y).value == Flatten(x).value + Flatten(y).value
  {
    if |x| == 0 {
      assert x + y == y;
    } else {
      FlattenAppend(x[1..], y);
      assert (x + y)[0] == x[0] && (x + y)[1..] == x[1..] + y;
      if Flatten(x + y).Success? {
        calc {
          Flatten(x + y).value;
        ==
          x[0].value + Flatten(x[1..] + y).value;
        ==
          x[0].value + (Flatten(x[1..]).value + Flatten(y).value);
        ==
          (x[0].value + Flatten(x[1..]).value) + Flatten(y).value;
        }
      }
    }
  }

  /** Outputs of at most one message each, none an assistant message with several calls, flatten to the same. */
  lemma {:induction false} FlattenBounded(outs: seq<Result<seq<Message>, TypeError>>)
    requires forall i | 0 <= i < |outs| :: outs[i].Success? ==> |outs[i].value| <= 1 && OneCallPerAssistant(outs[i].value)
    ensures Flatten(outs).Success? ==> |Flatten(outs).value| <= |outs| && OneCallPerAssistant(Flatten(outs).value)
  {
    if |outs| > 0 && Flatten(outs).Success? {
      assert forall i | 0 <= i < |outs| - 1 :: outs[1..][i] == outs[i + 1];
      FlattenBounded(outs[1..]);
      var h, rest := outs[0].value, Flatten(outs[1..]).value;
      var v := Flatten(outs).value;
      assert v == h + rest;
      forall i | 0 <= i < |v| && v[i].role == Assistant
        ensures |Calls(v[i])| <= 1
      {
        if i < |h| {
          assert v[i] == h[i];
        } else {
          assert v[i] == rest[i - |h|];
        }
      }
    }
  }

  /** Every flattened message is a message of one of the outputs. */
  lemma {:induction false} FlattenOrigin(outs: seq<Result<seq<Message>, TypeError>>)
    requires Flatten(outs).Success?
    ensures forall x | x in Flatten(outs).value :: exists i | 0 <= i < |outs| :: x in outs[i].value
  {
    if |outs| > 0 {
      FlattenOrigin(outs[1..]);
      var rest := Flatten(outs[1..]).value;
      assert Flatten(outs).value == outs[0].value + rest;
      forall x | x in rest
        ensures exists i | 0 <= i < |outs| :: x in outs[i].value
      {
        var i :| 0 <= i < |outs| - 1 && x in outs[1..][i].value;
        assert outs[1..][i] == outs[i + 1];
      }
    }
  }

  /** The transformation of a whole list, message by message; the first throwing message aborts it. */
  function TransformAll(ms: seq<Message>, ctx: Context, codec: Codec): (r: Result<seq<Message>, TypeError>)
    ensures r.Success? <==> forall i | 0 <= i < |ms| :: TransformOne(ms[i], ctx, codec).Success?
    ensures r.Success? ==> |r.value| <= |ms| && OneCallPerAssistant(r.value)
  {
    var outs := Outputs(ms, ctx, codec);
    FlattenBounded(outs);
    Flatten(outs)
  }

  /** A one-message list is transformed as its message is. */
  lemma TransformAllSingle(m: Message, ctx: Context, codec: Codec)
    ensures TransformAll([m], ctx, codec) == TransformOne(m, ctx, codec)
  {
    var outs := Outputs([m], ctx, codec);
    assert outs == [TransformOne(m, ctx, codec)];
    assert outs[1..] == [];
    assert Flatten(outs[1..]) == Success([]);
    if outs[0].Success? {
      assert outs[0].value + [] == outs[0].value;
    }
  }

  /**
    Transforming consecutive lists transforms each and keeps the first list's output first: the output is
    in input order, and a throwing message anywhere aborts the whole.
  */
  lemma TransformAllAppend(a: seq<Message>, b: seq<Message>, ctx: Context, codec: Codec)
    ensures TransformAll(a + b, ctx, codec).Success? <==>
      TransformAll(a, ctx, codec).Success? && TransformAll(b, ctx, codec).Success?
    ensures TransformAll(a + b, ctx, codec).Success? ==>
      TransformAll(a + b, ctx, codec).value == TransformAll(a, ctx, codec).value + TransformAll(b, ctx, codec).value
  {
    OutputsAppend(a, b, ctx, codec);
    FlattenAppend(Outputs(a, ctx, codec), Outputs(b, ctx, codec));
  }

  /** The outputs of consecutive messages are the outputs of each part, in order. */
  lemma OutputsAppend(a: seq<Message>, b: seq<Message>, ctx: Context, codec: Codec)
    ensures Outputs(a + b, ctx, codec) == Outputs(a, ctx, codec) + Outputs(b, ctx, codec)
  {
    var o, oa, ob := Outputs(a + b, ctx, codec), Outputs(a, ctx, codec), Outputs(b, ctx, codec);
    forall i | 0 <= i < |o|
      ensures o[i] == (oa + ob)[i]
    {
      if i < |a| {
        assert (a + b)[i] == a[i];
      } else {
        assert (a + b)[i] == b[i - |a|];
      }
    }
  }

  /** Every message the transformation outputs is the output of one input message. */
  lemma TransformAllOrigin(ms: seq<Message>, ctx: Context, codec: Codec)
    requires TransformAll(ms, ctx, codec).Success?
    ensures forall x | x in TransformAll(ms, ctx, codec).value ::
      exists i | 0 <= i < |ms| :: x in TransformOne(ms[i], ctx, codec).value
  {
    FlattenOrigin(Outputs(ms, ctx, codec));
  }

  /** The context the source builds from the deduplicated list. */
  function ContextOf(ms: seq<Message>, responses: map<string, ToolResponse>): Context {
    Context(Completed(ms), Orphans(ms), responses)
  }

  /**
    Steps 3 and 4 of the sanitiser: the response map (which may throw), the orphans, the completed set with
    the orphans removed, and the transformation.
  */
  function TransformMessages(ms: seq<Message>, codec: Codec): (r: Result<seq<Message>, TypeError>)
    ensures ResponseMap(ms).Failure? ==> r.Failure?
    ensures ResponseMap(ms).Success? ==> r == TransformAll(ms, ContextOf(ms, ResponseMap(ms).value), codec)
    ensures r.Success? ==> |r.value| <= |ms| && OneCallPerAssistant(r.value)
  {
    var responses :- ResponseMap(ms);
    TransformAll(ms, ContextOf(ms, responses), codec)
  }

  /**
    What survives the transformation: every tool call left in the output was issued by an assistant message
    of the input and has no tool response there, and every tool message left is an orphan.
  */
  lemma TransformedCallsAreUnanswered(ms: seq<Message>, codec: Codec)
    requires TransformMessages(ms, codec).Success?
    ensures forall x, c | x in TransformMessages(ms, codec).value && x.role == Assistant && c in Calls(x) ::
      IssuedIn(ms, c) && !(exists i | 0 <= i < |ms| :: Answers(ms[i], c.id))
    ensures forall x | x in TransformMessages(ms, codec).value && x.role == Tool ::
      x in ms && x.toolCallId.Some? && x.toolCallId.value in Orphans(ms)
  {
    var ctx := ContextOf(ms, ResponseMap(ms).value);
    assert TransformMessages(ms, codec) == TransformAll(ms, ctx, codec);
    forall x, c | x in TransformMessages(ms, codec).value && x.role == Assistant && c in Calls(x)
      ensures IssuedIn(ms, c) && !(exists i | 0 <= i < |ms| :: Answers(ms[i], c.id))
    {
      OutputCallIssued(ms, ctx, codec, x, c);
      var k :| 0 <= k < |ms| && ms[k].role == Assistant && c in Calls(ms[k]);
      CompletedIffAnswered(ms, k, c);
    }
    forall x | x in TransformMessages(ms, codec).value && x.role == Tool
      ensures x in ms && x.toolCallId.Some? && x.toolCallId.value in Orphans(ms)
    {
      OutputAnswerOrphaned(ms, ctx, codec, x);
    }
  }

  /** Some assistant message of `ms` carries the call `c`. */
  predicate IssuedIn(ms: seq<Message>, c: ToolCall) {
    exists k | 0 <= k < |ms| :: ms[k].role == Assistant && c in Calls(ms[k])
  }

  /** A tool call left in the output was issued by an input assistant message and is not completed. */
  lemma OutputCallIssued(ms: seq<Message>, ctx: Context, codec: Codec, x: Message, c: ToolCall)
    requires TransformAll(ms, ctx, codec).Success? && x in TransformAll(ms, ctx, codec).value
    requires x.role == Assistant && c in Calls(x)
    ensures c.id !in ctx.completed && IssuedIn(ms, c)
  {
    TransformAllOrigin(ms, ctx, codec);
    var k :| 0 <= k < |ms| && x in TransformOne(ms[k], ctx, codec).value;
    OutputCallOrigin(ms[k], ctx, codec, x, c);
  }

  /** A tool message left in the output is an input message answering an orphan. */
  lemma OutputAnswerOrphaned(ms: seq<Message>, ctx: Context, codec: Codec, x: Message)
    requires TransformAll(ms, ctx, codec).Success? && x in TransformAll(ms, ctx, codec).value && x.role == Tool
    ensures x in ms && x.toolCallId.Some? && x.toolCallId.value in ctx.orphans
  {
    TransformAllOrigin(ms, ctx, codec);
    var k :| 0 <= k < |ms| && x in TransformOne(ms[k], ctx, codec).value;
  }

  /** A tool call of an assistant message in the output of one message is a pending call of that message. */
  lemma OutputCallOrigin(m: Message, ctx: Context, codec: Codec, x: Message, c: ToolCall)
    requires TransformOne(m, ctx, codec).Success? && x in TransformOne(m, ctx, codec).value
    requires x.role == Assistant && c in Calls(x)
    ensures m.role == Assistant && c in Calls(m) && c.id !in ctx.completed
  {
    if HasCallBatch(m) && |Pending(Calls(m), ctx.completed)| > 0 {
      var p :| IsLastPending(Calls(m), ctx.completed, p) && TransformOne(m, ctx, codec) == Success([m.(toolCalls := Some([p]))]);
      assert c == p;
    }
  }

  /**
    A batch whose calls are all answered is replaced by exactly one assistant message: its summary, never
    blank, none of whose lines reports an initiated call.
  */
  lemma CompletedBatchBecomesSummary(ms: seq<Message>, k: int, codec: Codec)
    requires ResponseMap(ms).Success?
    requires 0 <= k < |ms| && HasCallBatch(ms[k])
    requires forall j | 0 <= j < |Calls(ms[k])| :: exists i | 0 <= i < |ms| :: Answers(ms[i], Calls(ms[k])[j].id)
    requires TransformOne(ms[k], ContextOf(ms, ResponseMap(ms).value), codec).Success?
    ensures exists lines ::
      && Lines(Calls(ms[k]), Calls(ms[k]), ResponseMap(ms).value, codec) == Success(lines)
      && (forall l | l in lines :: !StartsWith(l, "Initiated "))
      && TransformOne(ms[k], ContextOf(ms, ResponseMap(ms).value), codec) == Success([SummaryMessage(Join("\n", lines), ms[k])])
  {
    var ctx := ContextOf(ms, ResponseMap(ms).value);
    var batch := Calls(ms[k]);
    forall j | 0 <= j < |batch|
      ensures batch[j].id in ctx.completed && batch[j].id in ctx.responses
    {
      CompletedIffAnswered(ms, k, batch[j]);
    }
    assert |Pending(batch, ctx.completed)| == 0;
    SummaryNeverBlank(batch, ctx.responses, codec);
    NoInitiatedLine(batch, batch, ctx.responses, codec);
  }

  /** An assistant message with two calls, of which only the second is answered. */
  function PendingSample(): seq<Message> {
    [ Message(Assistant, None, None,
        Some([ToolCall("call_a", "web_search", "{}"), ToolCall("call_b", "web_search", "{}")]), None),
      Message(Tool, Some("done"), None, None, Some("call_b")) ]
  }

  lemma PendingSampleSets()
    ensures ResponseMap(PendingSample()).Success?
    ensures "call_b" in Completed(PendingSample()) && "call_b" !in Orphans(PendingSample())
    ensures "call_a" !in Completed(PendingSample())
  {
    var ms := PendingSample();
    assert Answers(ms[1], "call_b") && Issues(ms[0], "call_b");
    assert !Answers(ms[0], "call_a") && !Answers(ms[1], "call_a");
  }

  /** Whatever else the context holds, the sample's assistant message keeps only its unanswered first call. */
  lemma PendingSampleAssistant(ctx: Context, codec: Codec)
    requires "call_a" !in ctx.completed && "call_b" in ctx.completed
    ensures TransformAll([PendingSample()[0]], ctx, codec) == Success([PendingSample()[0].(toolCalls := Some([Calls(PendingSample()[0])[0]]))])
  {
    var a := PendingSample()[0];
    var first, second := Calls(a)[0], Calls(a)[1];
    assert Calls(a) == [first, second];
    assert Pending([first, second], ctx.completed) == [first] by {
      assert [first, second][..1] == [first];
      assert [first][..0] == [];
    }
    assert TransformOne(a, ctx, codec) == Success([a.(toolCalls := Some([first]))]);
    TransformAllSingle(a, ctx, codec);
  }

  /** The answer to a completed call that is no orphan is dropped. */
  lemma PendingSampleAnswer(ctx: Context, codec: Codec)
    requires "call_b" !in ctx.orphans
    ensures TransformAll([PendingSample()[1]], ctx, codec) == Success([])
  {
    var t := PendingSample()[1];
    assert TransformOne(t, ctx, codec) == Success([]);
    TransformAllSingle(t, ctx, codec);
  }

  /** Of the sample's two calls only the unanswered first is kept, and the answer to the second is dropped. */
  lemma PendingCallKept(codec: Codec)
    ensures TransformMessages(PendingSample(), codec) == Success([PendingSample()[0].(toolCalls := Some([Calls(PendingSample()[0])[0]]))])
  {
    var ms := PendingSample();
    PendingSampleSets();
    var ctx := ContextOf(ms, ResponseMap(ms).value);
    var kept := ms[0].(toolCalls := Some([Calls(ms[0])[0]]));
    PendingSampleAssistant(ctx, codec);
    PendingSampleAnswer(ctx, codec);
    assert ms == [ms[0]] + [ms[1]];
    TransformAllAppend([ms[0]], [ms[1]], ctx, codec);
    assert [kept] + [] == [kept];
  }

}

=== FILE: wrappers.dfy ===
/** Optional values and results that carry either a value or the error that stopped the computation. */
module Wrappers {

  /** A value that may be absent (a JavaScript `undefined`). */
  datatype Option<+T> = None | Some(value: T) {

    /** The value, or `default` when absent (JavaScript's `x || default` on an optional list). */
    function GetOr(default: T): T {
      match this
      case Some(v) => v
      case None => default
    }
  }

  /** Either the value a computation returned or the exception it threw; usable with `:-`. */
  datatype Result<+T, +E> = Success(value: T) | Failure(error: E) {

    predicate IsFailure() {
      Failure?
    }

    function PropagateFailure<U>(): Result<U, E>
      requires Failure?
    {
      Failure(error)
    }

    function Extract(): T
      requires Success?
    {
      value
    }
  }
}
